=== FILE: README.md ===
# Chat client core, modelled in Dafny

This project models the logic-bearing core of a Vue chat client for a knowledge-base
service, and proves properties of the model. There are four parts.

- **`useChatStream`** (module `ChatStream`) posts a chat request and reads the
  server-sent-event body.
  - It cuts the growing text buffer at every `"\n\n"`.
  - It reads the `data:` lines of each frame.
  - It folds each data value into `text` and `sources`. A value that does not parse
    is passed through as raw text.
  - It also models the reset, `catch` and `finally` bookkeeping of `send`, and
    `cancel`.
- **`chatApi`** (module `LineStream`) holds the async generators `chat` and
  `simpleChat`.
  - They split the body at line feeds and keep the unfinished last line.
  - They grow one assistant message from `text` records and yield a snapshot after
    each one.
  - A `done` record yields the message once more and returns.
  - The two generators differ only in how they handle `sources`, so one model with a
    `Mode` covers both.
- **`websocket`** has three parts:
  - the URL derivation in the constructor (module `Connection`);
  - the handler registry, with `on`, `off` and the `onmessage` fan-out (module
    `Registry`);
  - the connection state machine of `connect`, `onopen`, `onerror`, `onclose`, the
    reconnect timer, `disconnect`, `send` and the ping tick (module `Connection`).
- **`useToast`** (module `Toasts`) is the global toast list and its id counter. It
  covers `toast`, `dismiss` and `success`/`error`/`warning`.

Three modules support these:

- `Strings` models the JavaScript string operations the code relies on: `indexOf`
  (first occurrence), `trim` (ECMAScript white space), `split` with a one-character
  separator, `lines.pop()`, and `${n}`.
- `Cuts` holds the "cut at the first separator, keep the rest" loop that both stream
  readers share, with its chunk-boundary independence proof.
- `Fetch` holds the response status test and how a body read ends.

Parts of the model stand in for the environment:

- `JSON.parse` is a function-typed parameter `parse`. It classifies a text as
  unparseable, as `null`, or as a record with the fields the code reads.
- A response is a datatype: the fetch rejects, or a reply arrives with a status, an
  error body or a list of already-decoded chunks, and a read that ends normally or
  rejects. In `useChatStream` the reply may also have a `null` body.
- Timers are counters and explicit timer events.
- Every socket gets a number, so events from a socket the client has already replaced
  can be expressed.

## Code and design differences

The code is modelled as written. Where it differs from the intended design:

- **`done`/`finish` in `useChatStream`:** these records do not stop reading. Later
  frames are still folded (`ChatStream.TerminalDoesNotStop`), and a `type: "error"`
  record is handled like any other record with an optional `textDelta`.
- **Frame separator:** only `"\n\n"` separates frames. A frame ending in
  `"\r\n\r\n"` stays in the buffer (`ChatStream.CrLfBlankLineIsNoSeparator`).
- **Cancellation:** `cancel` does not end the request without an error. It aborts,
  and the pending read then rejects into the `catch`, which sets `error`. The model's
  `Send` takes that rejection as its response.
- **`error` records in `chatApi`:** they throw inside the `try` whose `catch` only
  logs. The record is swallowed and the stream continues.
- **Failing handler:** a handler that throws in `onmessage` stops the rest of the
  fan-out, including the wildcard handlers (`Registry.Dispatch`).
- **`connect` after the retry budget is spent:** `connect()` does not reset the retry
  counter; only `onopen` does. A manually reconnected socket that closes before it
  opens schedules no retry (`Connection.ConnectKeepsCounter`).
- **`null` body:** `useChatStream` reads `res.body!` without a check. A 2xx reply
  without a body (a 204, say) throws a `TypeError` into the `catch`, which sets
  `error` (`ChatStream.Send`).
- **Timers:** the ping interval is never cleared, and neither are reconnect timers.
- **Late close events:** the event handlers do not check which socket fired. The close
  of a socket dropped by `disconnect()` can erase a newer socket
  (`Connection.LateCloseForgetsNewSocket`).

## Model

Some members only compose others and carry no contract of their own. Their
behaviour is stated by the rows of the lemmas about them:

- `Registry.Fanout` and `Registry.Dispatch` by `Registry.DispatchCalls` and `Registry.TakeThrough`;
- `ChatStream.Settle` by `ChatStream.Send`;
- `Connection.Step` and `Connection.Run` by `Connection.RunInv`, `Connection.ReconnectsBounded` and `Connection.NoReconnectAfterDisconnect`;
- `LineStream.ReceiveAll` by `LineStream.ReceiveAllIsWhole`.

| member | source | states |
|---|---|---|
| Strings.IndexOf | src/composables/useChatStream.ts:70 | `indexOf` returns the first position where the separator occurs, or -1 exactly when it occurs nowhere |
| Strings.Trim | src/composables/useChatStream.ts:77 | the result is the slice left once the white space before and after it is removed; it neither starts nor ends with white space, and is empty exactly when the text is all white space |
| Strings.SplitJoin | src/services/chatApi.ts:63 | joining the pieces of `split('\n')` with line feeds gives the text back |
| Strings.TrailingIsSuffix | src/services/chatApi.ts:66 | what `lines.pop()` keeps is a suffix of the buffer |
| Strings.CompleteConcat | src/services/chatApi.ts:62-66 | the complete lines of `x + y` are those of `x` followed by those of `x`'s unfinished line glued to `y`, and the unfinished line agrees too |
| Strings.NatToStringInjective | src/composables/useToast.ts:21 | distinct counter values render as distinct decimal strings |
| Cuts.CutShape | src/composables/useChatStream.ts:69-73 | every cut-off block ends at the first remaining separator, and the carry-over holds no separator |
| Cuts.CutJoin | src/composables/useChatStream.ts:69-73 | the blocks, each followed by its separator, and then the carry-over, give back the whole text |
| Cuts.Feed | src/composables/useChatStream.ts:67-73 | after one chunk, the carry-over holds no separator, and the blocks already emitted stay emitted |
| Cuts.FeedAllIsCut | src/composables/useChatStream.ts:64-73 | feeding chunks one by one emits the blocks of cutting their concatenation at once and leaves the same carry-over |
| Cuts.ChunkingIrrelevant | src/composables/useChatStream.ts:64-73 | two chunkings of the same text emit the same blocks |
| ChatStream.CrLfLines | src/composables/useChatStream.ts:74 | every line is the piece between two line feeds, without the carriage return that ends it if there is one; the last piece is kept whole; no line contains a line feed |
| ChatStream.DataValue | src/composables/useChatStream.ts:76-78 | a line has a value only when it starts with `data:` and something other than white space follows; the value is then the trimmed text after the prefix |
| ChatStream.DataValueOfPadded | src/composables/useChatStream.ts:76-78 | a value written after `data:` with any white space around it is read back exactly |
| ChatStream.FrameValuesIgnoreCr | src/composables/useChatStream.ts:74-78 | splitting on `/\r?\n/` or on a bare line feed gives the same data values, because `trim` drops the carriage return |
| ChatStream.ApplyValue | src/composables/useChatStream.ts:79-96 | text only grows and only `text`/`sources` change; an unparseable value or `null` appends the raw value and a line feed; `finish`/`done` change nothing; another parsed record appends its truthy `textDelta` and keeps the sources |
| ChatStream.SourcesReplaced | src/composables/useChatStream.ts:81-95 | a `sources` record replaces the list with the `{title, category, score}` projection of its elements and keeps the text; a missing list sets `[]` and changes nothing else; a non-array, or an array holding `null`, falls into the `catch`, which appends the raw value |
| ChatStream.ApplyValuesConcat | src/composables/useChatStream.ts:75-97 | folding data values one after another composes |
| ChatStream.TerminalDoesNotStop | src/composables/useChatStream.ts:89-90 | a `done`/`finish` value in front of others changes nothing about how they fold |
| ChatStream.ApplyFramesConcat | src/composables/useChatStream.ts:70-98 | folding frames one after another composes |
| ChatStream.Receive | src/composables/useChatStream.ts:65-98 | after one read the buffer holds no `"\n\n"`, text has only grown, and `error`, `isStreaming` and the controller are untouched |
| ChatStream.ReceiveAll | src/composables/useChatStream.ts:64-99 | reading chunk after chunk only grows the text and leaves the error, streaming flag and controller alone |
| ChatStream.ReceiveAllIsWhole | src/composables/useChatStream.ts:64-99 | reading the chunks one by one folds exactly the frames of the whole body and keeps its unterminated tail |
| ChatStream.TailNeverProcessed | src/composables/useChatStream.ts:64-66 | a last chunk that completes no frame leaves text and sources unchanged |
| ChatStream.Request | src/composables/useChatStream.ts:31-39 | the endpoint falls back with `||` (so never empty), the numbers with `??` (5 and 2, and 0 is kept), and the message, category, tags and model pass through |
| ChatStream.Begin | src/composables/useChatStream.ts:26-29 | `send` starts from empty text, no sources, no error, streaming |
| ChatStream.Caught | src/composables/useChatStream.ts:100-101 | the `catch` sets `error` to the thrown message, or to the generic message when that is empty, and keeps text and sources |
| ChatStream.HttpErrorMessage | src/composables/useChatStream.ts:55-58 | a failed status gives the response text, or `HTTP <status>` when that text is empty |
| ChatStream.Send | src/composables/useChatStream.ts:25-106 | by every path `isStreaming` ends false with no controller; a rejected fetch leaves empty text and sources and its message (or the generic one) as the error; a failed status leaves the HTTP error message; a 2xx reply with a `null` body leaves the `TypeError`'s message; a streamed reply keeps the folded text and sources, with no error when the body read to its end and the rejection's message when a read rejected |
| ChatStream.SendChunkingIrrelevant | src/composables/useChatStream.ts:64-99 | the outcome of `send` depends on the body text, not on its chunking |
| ChatStream.Cancel | src/composables/useChatStream.ts:108-114 | with no request in flight nothing changes; otherwise streaming stops and the controller is dropped, and text, sources and error stay |
| ChatStream.CancelThenAbort | src/composables/useChatStream.ts:100-114 | cancelling during the read, then the abort's rejection through `catch` and `finally`, gives the state of a `send` whose read rejected with that message, so it always ends with an error |
| ChatStream.HelloScenario | src/composables/useChatStream.ts:64-99 | a `sources` frame, `text-delta` frames "Hel" and "lo" and a `done` frame, in any chunking, end with text "Hello", the one citation and no error |
| LineStream.Endpoint | src/services/chatApi.ts:1 | the request goes to the configured base exactly, or, when that is unset or empty, to the default base, followed by `/chat` or `/chat/simple` |
| LineStream.HandleRecord | src/services/chatApi.ts:77-101 | at most one message is yielded and earlier yields stay; `done` returns and yields the current message if there is one; in `chat` a `sources` record stores its list and changes nothing else; `text` grows the message or starts it with the sources gathered so far when non-empty; `simpleChat` never takes sources; other records, `error` included, change nothing |
| LineStream.HandleRecordConsistent | src/services/chatApi.ts:77-95 | the state stays consistent: the last snapshot is the current message, all snapshots carry its sources, and contents only extend |
| LineStream.LineRecord | src/services/chatApi.ts:69-75 | only a line starting with exactly `data: ` carries a record, and it is the parse of `line.slice(6)`, untrimmed |
| LineStream.DataLineNotBlank | src/services/chatApi.ts:69-71 | the blank-line test never skips a `data: ` line |
| LineStream.HandleLines | src/services/chatApi.ts:68-103 | once the generator has returned nothing changes, and yields only accumulate |
| LineStream.AfterDoneNothing | src/services/chatApi.ts:91-95 | after a `done` line the generator has returned and no later line changes anything |
| LineStream.LinesAreRecords | src/services/chatApi.ts:68-103 | lines that carry no record, malformed JSON included, are skipped without effect |
| LineStream.SnapshotsAgree | src/services/chatApi.ts:79-90 | all snapshots carry the same sources (none in `simpleChat`) and each one's content extends the previous one's |
| LineStream.ContentsAccumulate | src/services/chatApi.ts:79-95 | when every `sources` record before the first `text` carries a list (always so in `simpleChat`), the k-th snapshot is the first k+1 `text` payloads concatenated; the generator returned exactly when a `done` arrived; `done` adds one more snapshot only after some text |
| LineStream.SnapshotContents | src/services/chatApi.ts:55-104 | over the lines of a stream, under the same condition on early `sources` records, the snapshots hold the running concatenations of the `text` payloads, and a stream without `done` yields no extra final snapshot |
| LineStream.SimpleIsChatWithoutSources | src/services/chatApi.ts:140-178 | `simpleChat` behaves as `chat` on a stream without `sources` records |
| LineStream.MissingSourcesDropText | src/services/chatApi.ts:78-84 | after a `sources` record without a list, `chat` drops `text` records until a list arrives, because `sources.length` throws |
| LineStream.Receive | src/services/chatApi.ts:55-66 | after one read the buffer holds no line feed and is a suffix of the text; a returned generator reads nothing more |
| LineStream.ReceiveAllIsWhole | src/services/chatApi.ts:55-104 | reading the chunks one by one handles exactly the complete lines of the whole body and keeps its unfinished last line |
| LineStream.ChunkingIrrelevant | src/services/chatApi.ts:62-66 | two chunkings of the same body give the same generator |
| LineStream.UnterminatedTailIgnored | src/services/chatApi.ts:58-66 | a last line without a line feed is never handled, even when it is a complete record |
| LineStream.FailureMessage | src/services/chatApi.ts:40-43 | a failed status throws the body's `error` field or, when that is empty or missing, the fixed message of each generator |
| LineStream.Run | src/services/chatApi.ts:28-105 | a rejected fetch, a failed status and a missing body yield nothing and throw; a stream yields what its complete lines produce and throws only if a read rejects before `done`, and then throws that rejection's message |
| Registry.On | src/services/websocket.ts:135-139 | afterwards the pair is registered, and registering a registered pair changes nothing |
| Registry.OnSpec | src/services/websocket.ts:135-139 | `on` adds exactly that pair, keeps sets duplicate-free and non-empty, leaves other types alone, and appends after the existing handlers |
| Registry.Off | src/services/websocket.ts:150-158 | afterwards the pair is not registered, and an unknown type changes nothing |
| Registry.OffSpec | src/services/websocket.ts:150-158 | `off` removes exactly that pair, drops the type when its set empties, leaves other types alone, and changes nothing for an unregistered pair |
| Registry.Remove | src/services/websocket.ts:153 | `Set.delete` keeps exactly the other handlers and no duplicates |
| Registry.RemoveSplice | src/services/websocket.ts:153 | removing a registered handler splices it out and keeps the others in insertion order |
| Registry.OnTwice | src/services/websocket.ts:139 | a second `on` with the same pair changes nothing |
| Registry.OffUndoesOn | src/services/websocket.ts:142-144 | the unsubscribe closure undoes the `on` of a pair that was not registered |
| Registry.OffOnCommute | src/services/websocket.ts:135-158 | `on` and `off` on different types commute |
| Registry.ThreeSubscriptionsUndone | src/composables/useWebSocket.ts:33-40 | three subscriptions and their three unsubscribes leave the registry as it was |
| Registry.TakeThrough | src/services/websocket.ts:50-67 | the handlers called are a prefix of the fan-out, and it stops only right after a handler that throws |
| Registry.DispatchCalls | src/services/websocket.ts:49-67 | only handlers of the message type or `*` are called; an unparseable or `null` message calls none; with no throwing handler all are called, the type's first |
| Registry.FanoutExample | src/services/websocket.ts:49-67 | three `X` handlers and a wildcard handler make four calls; after one unsubscribes, three |
| Connection.StripScheme | src/services/websocket.ts:21 | an `https://` or `http://` prefix is removed, and any other text is kept |
| Connection.ReplaceFirst | src/services/websocket.ts:21 | replacing with a string pattern touches only the first occurrence |
| Connection.WsUrl | src/services/websocket.ts:18-22 | the URL is `wss` exactly when the base starts with `https`, `ws` otherwise, and ends in `/ws` |
| Connection.WsUrlOfBase | src/services/websocket.ts:18-22 | `http(s)://` + a + `/api/v1` + b, whose first `/api/v1` follows a, becomes `ws(s)://` + a + b + `/ws` |
| Connection.WsUrlWithoutApiPath | src/services/websocket.ts:18-22 | `http(s)://` + rest with no `/api/v1` in rest becomes `ws(s)://` + rest + `/ws` |
| Connection.WsUrlOfHost | src/services/websocket.ts:18-22 | `http(s)://host/api/v1`, with no `/` in the host, becomes `ws(s)://host/ws` |
| Connection.ApiPathAfterHost | src/services/websocket.ts:21 | in host + `/api/v1`, with no `/` in the host, the first `/api/v1` is the one after the host |
| Connection.DefaultWsUrl | src/services/websocket.ts:18-22 | with no configured base the URL is `ws://localhost:3000/ws` |
| Connection.New | src/services/websocket.ts:9-23 | a new service has no socket, no attempts and the derived URL |
| Connection.Connect | src/services/websocket.ts:28-96 | nothing happens while open or connecting, or when the constructor throws; otherwise a new connecting socket, and the counter is never reset |
| Connection.Opened | src/services/websocket.ts:40-47 | `onopen` sets the counter to 0, clears connecting, starts one more ping interval, marks the current socket open if it is the one that fired, and changes nothing else |
| Connection.Errored | src/services/websocket.ts:70-73 | `onerror` only clears connecting |
| Connection.Closed | src/services/websocket.ts:75-91 | `onclose` forgets the socket and clears connecting; below 5 attempts it counts one more and sets exactly one timer, otherwise none; nothing else changes |
| Connection.PingIntervalsOnlyGrow | src/services/websocket.ts:40-47 | no event ever stops a ping interval, and the URL never changes |
| Connection.TimerFired | src/services/websocket.ts:85-87 | a pending reconnect timer fires into `connect()` |
| Connection.Disconnect | src/services/websocket.ts:101-108 | with a socket the counter jumps to 5 and the socket is dropped; without one nothing changes |
| Connection.Send | src/services/websocket.ts:113-119 | only an open socket transmits, and nothing else changes |
| Connection.PingTick | src/services/websocket.ts:124-130 | a tick sends `{"type":"ping"}` when a ping interval runs and the socket is open, and otherwise changes nothing |
| Connection.RunInv | src/services/websocket.ts:28-108 | every reachable state keeps the counter at most 5, has no open socket while connecting, and refers to a created socket |
| Connection.ReconnectsBounded | src/services/websocket.ts:75-91 | without an open, each timer set costs one attempt, so at most 5 minus the attempts already made are set |
| Connection.NoReconnectAfterDisconnect | src/services/websocket.ts:101-108 | after `disconnect()` of a socket, no sequence of events without an open sets a timer |
| Connection.ConnectKeepsCounter | src/services/websocket.ts:28-34 | with the budget spent, a manual connect whose socket closes sets no timer |
| Connection.LateCloseForgetsNewSocket | src/services/websocket.ts:75-78 | a late close of the old socket, after a new `connect()`, leaves the client without a socket even once the new one opens |
| Toasts.ShowToast | src/composables/useToast.ts:15-38 | `toast` appends exactly one entry after the existing ones; its id is `toast-` and the next counter value; variant defaults to `default` and duration to 3000; a timer is set only for a positive duration |
| Toasts.ShowToastInv | src/composables/useToast.ts:11-30 | the new id differs from every id in the list and every pending timer, and ids stay unique |
| Toasts.FindIndex | src/composables/useToast.ts:42 | `findIndex` gives the first entry with the id, or -1 exactly when there is none |
| Toasts.Dismiss | src/composables/useToast.ts:41-46 | an absent id changes nothing; the counter and timers are untouched |
| Toasts.DismissIsFilter | src/composables/useToast.ts:41-46 | with unique ids, `dismiss` removes the entry with that id and keeps the others in their order |
| Toasts.DismissInv | src/composables/useToast.ts:41-46 | `dismiss` keeps ids unique and issued |
| Toasts.DismissIdempotent | src/composables/useToast.ts:41-46 | a second `dismiss` of the same id changes nothing |
| Toasts.ShowThenDismiss | src/composables/useToast.ts:21-46 | dismissing the id `toast` returned restores the list |
| Toasts.TimerFired | src/composables/useToast.ts:33-35 | a firing timer dismisses its id and is removed from the pending timers; the counter and the other timers stay |
| Toasts.TimerFiredInv | src/composables/useToast.ts:33-46 | a firing timer keeps ids unique and issued |
| Toasts.NoTimerForNonPositive | src/composables/useToast.ts:32-36 | a toast with duration 0 or less has no pending timer |
| Toasts.Notify | src/composables/useToast.ts:48-58 | `success`/`error`/`warning` append a toast with that variant and duration 3000, and set its timer |
| Toasts.SuccessToast | src/composables/useToast.ts:48-50 | `success` appends a toast with variant `success` and the default duration |
| Toasts.ErrorToast | src/composables/useToast.ts:52-54 | `error` appends a toast with variant `error` and the default duration |
| Toasts.WarningToast | src/composables/useToast.ts:56-58 | `warning` appends a toast with variant `warning` and the default duration |

## Left out

- Byte decoding: `TextDecoder` is not modelled. Chunks are already-decoded strings, so a multi-byte character split across chunks is out of scope.
- Transport: `fetch`, `AbortController` and the socket itself are not modelled. Their outcomes are inputs: a rejected fetch, a status, the chunks, how the read ends, and whether `new WebSocket` throws.
- `JSON.parse` and `JSON.stringify` are not modelled. Parsing is the parameter `parse`, and `send` takes the already-serialised payload.
- Timing: `setTimeout` and `setInterval` are not modelled. Timers are counters, and firing them is an explicit event.
- Console logging is left out, because it has no effect on state.
- Non-string values: a `textDelta`, `text`, `title` or `type` that is not a string, and a `score` that is not a number, are not modelled. Each is `Option`al or kept as a string.
- LineStream.HandleRecord: a `sources` record in `chat` stores `Option<seq<SourceDocument>>`. A `sources` value that is neither a list nor missing (a string, say, whose `length` exists) is not modelled.
- Socket ready states: only `CONNECTING` and `OPEN` are modelled. `CLOSING` and `CLOSED` states of a socket still referenced are not. The client tests `readyState === OPEN` in `send` and the ping tick, so after an `error` event the model's socket stays `Open` and `Connection.Send` and `Connection.PingTick` still transmit until the `close` event, where the real socket is already closing and they would send nothing.
- Event order: events may arrive in any order, including an `open` from a socket that was already closed.
- Timer hygiene: clearing timers is not modelled, because the code never clears the ping interval or a reconnect timer.
- Connection.PingTick: one tick stands for any running interval. The number of pings per tick with several intervals running is not counted.
- Toasts.TimerFired: it fires the k-th pending timer, and ignores which duration elapses first.
- ChatStream.Send: it runs one request to completion. Overlapping requests are not modelled. After `cancel()` and a new `send()`, the aborted request's `catch` and `finally` still run. They set `error` and clear `isStreaming` and the controller of the new request, which then can no longer be cancelled.
- Registry.Dispatch: changes to the registry made by a handler during the fan-out are not modelled. The code iterates the live `Set` and looks up the `*` set only after the type's handlers have run, so an `on` or `off` inside a handler can change who is called. The fan-out is computed from the registry as it was when the message arrived.
- ContentsAccumulate: a `sources` record without a list that arrives before the first `text` makes `chat` drop `text` records until a list arrives. The running concatenation is then not stated; `LineStream.MissingSourcesDropText` states what happens instead.
- SnapshotContents: the same condition on early `sources` records applies, for the same reason.
- ShowToastInv: `toastId` is a JavaScript number, modelled as an unbounded natural. At 2^53, `++toastId` stops changing it, so ids would repeat; uniqueness holds only below that bound.
- Toasts.ShowToast: `duration` is modelled as an integer. A fractional duration such as 0.5 sets a timer, and `NaN` sets none; neither is modelled.
- The Vue `ref` reactivity wrappers are left out.
- The 1-second connection polling in `useWebSocket` is left out; only its subscribe/unsubscribe pattern is modelled.
- `knowledgeApi`, `useChatHistory`, the router and the analysis types are not part of this model. They hold no logic of the modelled core.

=== FILE: chat_stream.dfy ===
/**
 The `useChatStream` composable: it posts a chat request, reads the response body as
 a stream of text chunks, cuts the text into blank-line-separated frames, reads the
 `data:` lines of every frame, and folds each data value into the visible state
 (`text`, `sources`, `error`, `isStreaming`).

 `JSON.parse` is the parameter `parse`: it classifies a data value as unparseable,
 as the JSON `null`, or as a record with the fields the fold reads.
 */
module ChatStream {
  import opened Optional
  import opened Strings
  import opened Cuts
  import opened Fetch

  /** Frames end at a blank line; only the two-character `"\n\n"` is recognised. */
  const FrameSeparator: string := "\n\n"
  const DataPrefix: string := "data:"
  const DefaultEndpoint: string := "http://localhost:3000/api/v1/chat"
  const DefaultSearchLimit: int := 5
  const DefaultContextChunksPerDoc: int := 2
  /** The message `error` shows when the thrown value has an empty message. */
  const GenericError: string := "Streaming error"

  /** A citation as the composable keeps it: only `{title, category, score}`. */
  datatype ChatSource = ChatSource(title: Option<string>, category: Option<string>, score: Option<real>)

  /** One element of a `sources` array as it arrives from upstream. */
  datatype SourceElement =
    | NullElement
    | Element(title: Option<string>, category: Option<string>, score: Option<real>,
              extra: map<string, string>)

  /** The `sources` field of a record. */
  datatype SourcesField =
    | NoSources                                  // absent or falsy: `data.sources || []` is `[]`
    | SourceArray(elements: seq<SourceElement>)
    | NotAnArray                                 // truthy but without `.map`: calling it throws

  /** The fields of a parsed data value that the fold reads; `kind` is the `type` field. */
  datatype Record = Record(kind: Option<string>, textDelta: Option<string>, sources: SourcesField)

  /** What `JSON.parse` makes of one data value. */
  datatype Parsed = Unparseable | ParsedNull | Parsed(record: Record)

  /** The composable's refs, plus the read loop's carry-over `buffer`. */
  datatype Chat = Chat(
    text: string,
    sources: seq<ChatSource>,
    isStreaming: bool,
    error: Option<string>,
    inFlight: bool,      // `controllerRef.value !== null`
    buffer: string)

  // ---------------------------------------------------------------------------
  // lines and data values of one frame

  /** `s.slice(0, -1)` when `s` ends in a carriage return. */
  function DropCr(s: string): string {
    if |s| > 0 && s[|s| - 1] == '\r' then s[..|s| - 1] else s
  }

  /**
   `block.split(/\r?\n/)`: the pieces between line feeds, where a carriage return
   right before a line feed belongs to the separator.
   */
  function CrLfLines(block: string): (lines: seq<string>)
    ensures |lines| == |Split(block, '\n')|
    ensures forall i :: 0 <= i < |lines| ==> '\n' !in lines[i]
    ensures forall i :: 0 <= i < |lines| - 1 && EndsWith(Split(block, '\n')[i], "\r") ==>
              Split(block, '\n')[i] == lines[i] + "\r"
    ensures forall i :: 0 <= i < |lines| && !(i < |lines| - 1 && EndsWith(Split(block, '\n')[i], "\r")) ==>
              Split(block, '\n')[i] == lines[i]
  {
    var parts := Split(block, '\n');
    SplitAvoids(block, '\n');
    seq(|parts|, i requires 0 <= i < |parts| => if i < |parts| - 1 then DropCr(parts[i]) else parts[i])
  }

  /** The value of a `data:` line, trimmed, when the line has a non-empty one. */
  function DataValue(line: string): (v: Option<string>)
    ensures v.Some? ==> StartsWith(line, DataPrefix) && v.value != ""
    ensures !StartsWith(line, DataPrefix) ==> v.None?
    ensures StartsWith(line, DataPrefix) && AllSpace(line[|DataPrefix|..]) ==> v.None?
    ensures StartsWith(line, DataPrefix) && !AllSpace(line[|DataPrefix|..]) ==>
              v == Some(Trim(line[|DataPrefix|..]))
  {
    if StartsWith(line, DataPrefix) then
      var value := Trim(line[|DataPrefix|..]);
      if value == "" then None else Some(value)
    else None
  }

  function DataValues(lines: seq<string>): (vs: seq<string>)
    ensures |vs| <= |lines|
    ensures forall i :: 0 <= i < |vs| ==> vs[i] != ""
  {
    if |lines| == 0 then []
    else
      match DataValue(lines[0])
      case Some(v) => [v] + DataValues(lines[1..])
      case None => DataValues(lines[1..])
  }

  /** The data values of one frame, in line order. */
  function FrameValues(block: string): seq<string> {
    DataValues(CrLfLines(block))
  }

  /** A carriage return before the line feed never changes a data value. */
  lemma DataValueDropCr(line: string)
    ensures DataValue(DropCr(line)) == DataValue(line)
  {
    if |line| > 0 && line[|line| - 1] == '\r' {
      var l := line[..|line| - 1];
      assert line == l + ['\r'];
      PrefixIgnoresCr(l);
      if StartsWith(l, DataPrefix) {
        assert line[|DataPrefix|..] == l[|DataPrefix|..] + ['\r'];
        TrimSpaceSnoc(l[|DataPrefix|..], '\r');
      }
    }
  }

  lemma PrefixIgnoresCr(l: string)
    ensures StartsWith(l + ['\r'], DataPrefix) <==> StartsWith(l, DataPrefix)
  {
    var line := l + ['\r'];
    if |l| >= |DataPrefix| {
      assert line[..|DataPrefix|] == l[..|DataPrefix|];
    } else if |line| >= |DataPrefix| {
      assert line[|DataPrefix| - 1] == '\r';
    }
  }

  /**
   Splitting a frame on `/\r?\n/` or on a plain line feed yields the same data values,
   because `trim` removes a trailing carriage return anyway.
   */
  lemma {:induction false} FrameValuesIgnoreCr(block: string)
    ensures FrameValues(block) == DataValues(Split(block, '\n'))
  {
    var parts := Split(block, '\n');
    var lines := CrLfLines(block);
    forall i | 0 <= i < |parts|
      ensures DataValue(lines[i]) == DataValue(parts[i])
    {
      DataValueDropCr(parts[i]);
    }
    SameDataValues(lines, parts);
  }

  lemma {:induction false} SameDataValues(xs: seq<string>, ys: seq<string>)
    requires |xs| == |ys|
    requires forall i :: 0 <= i < |xs| ==> DataValue(xs[i]) == DataValue(ys[i])
    ensures DataValues(xs) == DataValues(ys)
    decreases |xs|
  {
    if |xs| > 0 {
      SameDataValues(xs[1..], ys[1..]);
    }
  }

  // ---------------------------------------------------------------------------
  // folding one data value into the state

  /** `(data.sources || []).map(s => ({title: s.title, category: s.category, score: s.score}))` */
  function Project(elements: seq<SourceElement>): seq<ChatSource>
    requires forall i :: 0 <= i < |elements| ==> elements[i].Element?
  {
    seq(|elements|, i requires 0 <= i < |elements| =>
      ChatSource(elements[i].title, elements[i].category, elements[i].score))
  }

  predicate HasNullElement(elements: seq<SourceElement>) {
    exists i :: 0 <= i < |elements| && elements[i].NullElement?
  }

  /** The `catch` branch: the raw value and a line feed are appended to `text`. */
  function Fallback(c: Chat, v: string): Chat {
    c.(text := c.text + v + "\n")
  }

  /** True when the value parses to a record of one of the two terminal types. */
  predicate IsTerminal(p: Parsed) {
    p.Parsed? && (p.record.kind == Some("finish") || p.record.kind == Some("done"))
  }

  /**
   One iteration of the inner `for (const line of lines)` body, for a line whose data
   value is `v`. Only `text` and `sources` can change; `text` only grows.
   */
  function ApplyValue(c: Chat, v: string, parse: string -> Parsed): (r: Chat)
    ensures IsPrefix(c.text, r.text)
    ensures r.(text := c.text, sources := c.sources) == c
    ensures !parse(v).Parsed? ==> r == Fallback(c, v)
    ensures IsTerminal(parse(v)) ==> r == c
    ensures r.sources != c.sources ==> parse(v).Parsed? && parse(v).record.kind == Some("sources")
    ensures parse(v).Parsed? && parse(v).record.kind != Some("sources") && !IsTerminal(parse(v)) ==>
              && r.sources == c.sources
              && r.text == c.text + (if Truthy(parse(v).record.textDelta) then parse(v).record.textDelta.value else "")
  {
    match parse(v)
    case Unparseable => Fallback(c, v)
    case ParsedNull => Fallback(c, v)      // reading `.type` of null throws into the same catch
    case Parsed(rec) =>
      if rec.kind == Some("sources") then
        match rec.sources
        case NoSources => c.(sources := [])
        case NotAnArray => Fallback(c, v)
        case SourceArray(es) =>
          if HasNullElement(es) then Fallback(c, v)
          else c.(sources := Project(es))
      else if rec.kind == Some("text-delta") && Truthy(rec.textDelta) then
        c.(text := c.text + rec.textDelta.value)
      else if rec.kind == Some("finish") || rec.kind == Some("done") then
        c
      else if Truthy(rec.textDelta) then
        c.(text := c.text + rec.textDelta.value)
      else
        c
  }

  /**
   A `sources` record replaces the list by the projection of its elements and leaves
   the text alone; an array holding `null` makes the projection throw, so the raw
   value is appended instead.
   */
  lemma SourcesReplaced(c: Chat, v: string, parse: string -> Parsed)
    requires parse(v).Parsed? && parse(v).record.kind == Some("sources")
    ensures parse(v).record.sources.NoSources? ==> ApplyValue(c, v, parse) == c.(sources := [])
    ensures parse(v).record.sources.SourceArray? && HasNullElement(parse(v).record.sources.elements) ==>
              ApplyValue(c, v, parse) == Fallback(c, v)
    ensures parse(v).record.sources.SourceArray? && !HasNullElement(parse(v).record.sources.elements) ==>
              var es := parse(v).record.sources.elements;
              var r := ApplyValue(c, v, parse);
              && |r.sources| == |es|
              && (forall i :: 0 <= i < |es| ==>
                    r.sources[i] == ChatSource(es[i].title, es[i].category, es[i].score))
              && r.text == c.text
    ensures parse(v).record.sources.NotAnArray? ==> ApplyValue(c, v, parse) == Fallback(c, v)
  {
  }

  function ApplyValues(c: Chat, vs: seq<string>, parse: string -> Parsed): (r: Chat)
    ensures IsPrefix(c.text, r.text)
    ensures r.(text := c.text, sources := c.sources) == c
    decreases |vs|
  {
    if |vs| == 0 then c else ApplyValues(ApplyValue(c, vs[0], parse), vs[1..], parse)
  }

  /** Folding values one after the other composes. */
  lemma {:induction false} ApplyValuesConcat(c: Chat, a: seq<string>, b: seq<string>, parse: string -> Parsed)
    ensures ApplyValues(c, a + b, parse) == ApplyValues(ApplyValues(c, a, parse), b, parse)
    decreases |a|
  {
    if |a| > 0 {
      assert (a + b)[1..] == a[1..] + b;
      ApplyValuesConcat(ApplyValue(c, a[0], parse), a[1..], b, parse);
    } else {
      assert a + b == b;
    }
  }

  /**
   A `done` or `finish` record does not end the read loop: whatever follows it is
   folded exactly as if the record were absent.
   */
  lemma TerminalDoesNotStop(c: Chat, d: string, rest: seq<string>, parse: string -> Parsed)
    requires IsTerminal(parse(d))
    ensures ApplyValues(c, [d] + rest, parse) == ApplyValues(c, rest, parse)
  {
    assert ([d] + rest)[1..] == rest;
  }

  function ApplyFrames(c: Chat, frames: seq<string>, parse: string -> Parsed): (r: Chat)
    ensures IsPrefix(c.text, r.text)
    ensures r.(text := c.text, sources := c.sources) == c
    decreases |frames|
  {
    if |frames| == 0 then c
    else ApplyFrames(ApplyValues(c, FrameValues(frames[0]), parse), frames[1..], parse)
  }

  lemma {:induction false} ApplyFramesConcat(c: Chat, a: seq<string>, b: seq<string>, parse: string -> Parsed)
    ensures ApplyFrames(c, a + b, parse) == ApplyFrames(ApplyFrames(c, a, parse), b, parse)
    decreases |a|
  {
    if |a| > 0 {
      assert (a + b)[1..] == a[1..] + b;
      ApplyFramesConcat(ApplyValues(c, FrameValues(a[0]), parse), a[1..], b, parse);
    } else {
      assert a + b == b;
    }
  }

  /** The fold never reads the carry-over buffer. */
  lemma {:induction false} ApplyFramesBuffer(c: Chat, b: string, frames: seq<string>, parse: string -> Parsed)
    ensures ApplyFrames(c.(buffer := b), frames, parse) == ApplyFrames(c, frames, parse).(buffer := b)
    decreases |frames|
  {
    if |frames| > 0 {
      var vs := FrameValues(frames[0]);
      assert ApplyValues(c.(buffer := b), vs, parse) == ApplyValues(c, vs, parse).(buffer := b) by {
        ApplyValuesBuffer(c, b, vs, parse);
      }
      ApplyFramesBuffer(ApplyValues(c, vs, parse), b, frames[1..], parse);
    }
  }

  lemma {:induction false} ApplyValuesBuffer(c: Chat, b: string, vs: seq<string>, parse: string -> Parsed)
    ensures ApplyValues(c.(buffer := b), vs, parse) == ApplyValues(c, vs, parse).(buffer := b)
    decreases |vs|
  {
    if |vs| > 0 {
      assert ApplyValue(c.(buffer := b), vs[0], parse) == ApplyValue(c, vs[0], parse).(buffer := b);
      ApplyValuesBuffer(ApplyValue(c, vs[0], parse), b, vs[1..], parse);
    }
  }

  // ---------------------------------------------------------------------------
  // the read loop

  /**
   One `reader.read()` result: append the chunk to the buffer, cut off every complete
   frame and fold it. Afterwards the buffer holds no `"\n\n"`.
   */
  function Receive(c: Chat, chunk: string, parse: string -> Parsed): (r: Chat)
    ensures Free(r.buffer, FrameSeparator)
    ensures IsPrefix(c.text, r.text)
    ensures r.error == c.error && r.isStreaming == c.isStreaming && r.inFlight == c.inFlight
  {
    var cut := Cut(c.buffer + chunk, FrameSeparator);
    CutShape(c.buffer + chunk, FrameSeparator);
    ApplyFrames(c.(buffer := cut.rest), cut.pieces, parse)
  }

  function ReceiveAll(c: Chat, chunks: seq<string>, parse: string -> Parsed): (r: Chat)
    ensures IsPrefix(c.text, r.text)
    ensures r.error == c.error && r.isStreaming == c.isStreaming && r.inFlight == c.inFlight
  {
    if |chunks| == 0 then c
    else Receive(ReceiveAll(c, chunks[..|chunks| - 1], parse), chunks[|chunks| - 1], parse)
  }

  /**
   Chunk-boundary independence: reading the chunks one by one from an empty buffer
   folds exactly the frames of the whole text, and leaves its unterminated tail.
   */
  lemma {:induction false} ReceiveAllIsWhole(c: Chat, chunks: seq<string>, parse: string -> Parsed)
    requires c.buffer == ""
    ensures var cut := Cut(Concat(chunks), FrameSeparator);
            ReceiveAll(c, chunks, parse) == ApplyFrames(c.(buffer := cut.rest), cut.pieces, parse)
  {
    FeedAllIsCut(chunks, FrameSeparator);
    ReceiveAllFeeds(c, chunks, parse);
  }

  lemma {:induction false} ReceiveAllFeeds(c: Chat, chunks: seq<string>, parse: string -> Parsed)
    requires c.buffer == ""
    ensures var f := FeedAll(chunks, FrameSeparator);
            ReceiveAll(c, chunks, parse) == ApplyFrames(c.(buffer := f.rest), f.pieces, parse)
    decreases |chunks|
  {
    if |chunks| == 0 {
      assert c.(buffer := "") == c;
    } else {
      var init, last := chunks[..|chunks| - 1], chunks[|chunks| - 1];
      var f := FeedAll(init, FrameSeparator);
      var before := ApplyFrames(c.(buffer := f.rest), f.pieces, parse);
      assert ReceiveAll(c, init, parse) == before by {
        ReceiveAllFeeds(c, init, parse);
      }
      assert before.buffer == f.rest;
      var cut := Cut(f.rest + last, FrameSeparator);
      calc {
        ReceiveAll(c, chunks, parse);
        Receive(before, last, parse);
        ApplyFrames(before.(buffer := cut.rest), cut.pieces, parse);
        { ApplyFramesBuffer(c, f.rest, f.pieces, parse);
          ApplyFramesBuffer(c, cut.rest, f.pieces, parse); }
        ApplyFrames(ApplyFrames(c.(buffer := cut.rest), f.pieces, parse), cut.pieces, parse);
        { ApplyFramesConcat(c.(buffer := cut.rest), f.pieces, cut.pieces, parse); }
        ApplyFrames(c.(buffer := cut.rest), f.pieces + cut.pieces, parse);
      }
    }
  }

  /**
   Bytes after the last `"\n\n"` are never folded: a final chunk that completes no
   frame leaves `text` and `sources` as they were.
   */
  lemma TailNeverProcessed(c: Chat, chunks: seq<string>, tail: string, parse: string -> Parsed)
    requires Free(ReceiveAll(c, chunks, parse).buffer + tail, FrameSeparator)
    ensures var before, after := ReceiveAll(c, chunks, parse), ReceiveAll(c, chunks + [tail], parse);
            after.text == before.text && after.sources == before.sources
  {
    var before := ReceiveAll(c, chunks, parse);
    assert (chunks + [tail])[..|chunks|] == chunks;
    var s := before.buffer + tail;
    assert IndexOf(s, FrameSeparator) == -1 by {
      assert !OccursAt(s, FrameSeparator, IndexOf(s, FrameSeparator));
    }
  }

  // ---------------------------------------------------------------------------
  // send and cancel

  datatype ChatOptions = ChatOptions(
    category: Option<string>,
    tags: Option<seq<string>>,
    searchLimit: Option<int>,
    contextChunksPerDoc: Option<int>,
    model: Option<string>,
    endpoint: Option<string>)

  datatype ChatRequest = ChatRequest(
    endpoint: string,
    message: string,
    category: Option<string>,
    tags: Option<seq<string>>,
    searchLimit: int,
    contextChunksPerDoc: int,
    model: Option<string>)

  /**
   The request `send` posts. The endpoint falls back on `||` (an empty string is
   replaced), the numbers on `??` (only a missing value is replaced, 0 is kept).
   */
  function Request(message: string, opts: ChatOptions): (r: ChatRequest)
    ensures r.message == message && r.category == opts.category && r.tags == opts.tags && r.model == opts.model
    ensures r.endpoint == (if Truthy(opts.endpoint) then opts.endpoint.value else DefaultEndpoint)
    ensures r.endpoint != ""
    ensures opts.searchLimit.Some? ==> r.searchLimit == opts.searchLimit.value
    ensures opts.searchLimit.None? ==> r.searchLimit == DefaultSearchLimit
    ensures opts.contextChunksPerDoc.Some? ==> r.contextChunksPerDoc == opts.contextChunksPerDoc.value
    ensures opts.contextChunksPerDoc.None? ==> r.contextChunksPerDoc == DefaultContextChunksPerDoc
  {
    ChatRequest(
      if Truthy(opts.endpoint) then opts.endpoint.value else DefaultEndpoint,
      message,
      opts.category,
      opts.tags,
      match opts.searchLimit case Some(n) => n case None => DefaultSearchLimit,
      match opts.contextChunksPerDoc case Some(n) => n case None => DefaultContextChunksPerDoc,
      opts.model)
  }

  /**
   What the transport does with the request. `NullBody` is a reply whose body is
   `null` (a 204 or 205, say): `res.body!.getReader()` then throws a `TypeError`
   whose text is `message`.
   */
  datatype Response =
    | FetchRejected(message: string)
    | Reply(status: int, errorText: string, chunks: seq<string>, end: ReadEnd)
    | NullBody(status: int, errorText: string, message: string)

  /** The state right before the request goes out. */
  function Begin(c: Chat): (r: Chat)
    ensures r.text == "" && r.sources == [] && r.error == None
    ensures r.isStreaming && r.inFlight && r.buffer == ""
  {
    c.(error := None, text := "", sources := [], isStreaming := true, inFlight := true, buffer := "")
  }

  /** The `catch`: `e?.message || 'Streaming error'`. */
  function Caught(c: Chat, message: string): (r: Chat)
    ensures r.error.Some? && r.error.value != ""
    ensures message != "" ==> r.error == Some(message)
    ensures message == "" ==> r.error == Some(GenericError)
    ensures r.text == c.text && r.sources == c.sources
  {
    c.(error := Some(if message == "" then GenericError else message))
  }

  /** The `finally`. */
  function Settle(c: Chat): Chat {
    c.(isStreaming := false, inFlight := false)
  }

  /** The message of the error `send` throws for a response that is not ok. */
  function HttpErrorMessage(status: int, errorText: string): (m: string)
    ensures m != ""
    ensures errorText != "" ==> m == errorText
    ensures errorText == "" ==> m == "HTTP " + IntToString(status)
  {
    if errorText != "" then errorText else "HTTP " + IntToString(status)
  }

  /**
   `send`, run to completion: it starts from an empty result, and by any path ends
   with `isStreaming` false and no controller. Text folded before a failed read stays.
   */
  function Send(c: Chat, response: Response, parse: string -> Parsed): (r: Chat)
    ensures !r.isStreaming && !r.inFlight
    ensures response.FetchRejected? ==>
              r.text == "" && r.sources == []
              && r.error == Some(if response.message == "" then GenericError else response.message)
    ensures (response.Reply? || response.NullBody?) && !Ok(response.status) ==>
              r.text == "" && r.sources == []
              && r.error == Some(HttpErrorMessage(response.status, response.errorText))
    ensures response.NullBody? && Ok(response.status) ==>
              r.text == "" && r.sources == []
              && r.error == Some(if response.message == "" then GenericError else response.message)
    ensures response.Reply? && Ok(response.status) ==>
              var streamed := ReceiveAll(Begin(c), response.chunks, parse);
              r.text == streamed.text && r.sources == streamed.sources
              && (response.end.Drained? ==> r.error == None)
              && (response.end.ReadRejected? ==>
                    var m := response.end.message;
                    r.error == Some(if m == "" then GenericError else m))
  {
    var started := Begin(c);
    match response
    case FetchRejected(m) => Settle(Caught(started, m))
    case NullBody(status, errorText, m) =>
      if !Ok(status) then Settle(Caught(started, HttpErrorMessage(status, errorText)))
      else Settle(Caught(started, m))
    case Reply(status, errorText, chunks, end) =>
      if !Ok(status) then Settle(Caught(started, HttpErrorMessage(status, errorText)))
      else
        var streamed := ReceiveAll(started, chunks, parse);
        match end
        case Drained => Settle(streamed)
        case ReadRejected(m) => Settle(Caught(streamed, m))
  }

  /** The outcome of `send` depends on the body text only, not on how it was chunked. */
  lemma SendChunkingIrrelevant(c: Chat, status: int, errorText: string, xs: seq<string>, ys: seq<string>,
                               end: ReadEnd, parse: string -> Parsed)
    requires Concat(xs) == Concat(ys)
    ensures Send(c, Reply(status, errorText, xs, end), parse) == Send(c, Reply(status, errorText, ys, end), parse)
  {
    ReceiveAllIsWhole(Begin(c), xs, parse);
    ReceiveAllIsWhole(Begin(c), ys, parse);
  }

  /** `cancel`: aborts and forgets an in-flight request; with none it changes nothing. */
  function Cancel(c: Chat): (r: Chat)
    ensures !c.inFlight ==> r == c
    ensures !r.isStreaming || r == c
    ensures !r.inFlight
    ensures r.text == c.text && r.sources == c.sources && r.error == c.error
  {
    if c.inFlight then c.(inFlight := false, isStreaming := false) else c
  }

  /**
   Cancelling while the body is being read: the abort makes the pending read reject,
   and the `catch` and `finally` that follow leave exactly the state of a `send` whose
   read rejected with the abort's message, so the cancelled request always ends with
   an error.
   */
  lemma CancelThenAbort(c: Chat, status: int, errorText: string, chunks: seq<string>, m: string,
                        parse: string -> Parsed)
    requires Ok(status)
    ensures var streaming := ReceiveAll(Begin(c), chunks, parse);
            && streaming.inFlight
            && Settle(Caught(Cancel(streaming), m)) == Send(c, Reply(status, errorText, chunks, ReadRejected(m)), parse)
            && Settle(Caught(Cancel(streaming), m)).error.Some?
  {
  }

  // ---------------------------------------------------------------------------
  // scenarios

  /** A line without line feeds, followed by `"\n\n"`, is one frame. */
  lemma LineIsPiece(b: string)
    requires '\n' !in b
    ensures IsPiece(b, FrameSeparator)
  {
    forall i | 0 <= i < |b|
      ensures !OccursAt(b + FrameSeparator, FrameSeparator, i)
    {
      assert (b + FrameSeparator)[i] == b[i] != '\n';
    }
  }

  /**
   A frame that ends in `"\r\n\r\n"` is not cut: the whole text stays in the buffer,
   since only `"\n\n"` separates frames.
   */
  lemma CrLfBlankLineIsNoSeparator()
    ensures Cut("data: {}\r\n\r\n", FrameSeparator) == Cutting([], "data: {}\r\n\r\n")
  {
    var s := "data: {}\r\n\r\n";
    forall i | 0 <= i
      ensures !OccursAt(s, FrameSeparator, i)
    {
      if i + 2 <= |s| {
        assert s[i] != '\n' || s[i + 1] != '\n';
      }
    }
    assert IndexOf(s, FrameSeparator) == -1 by {
      assert !OccursAt(s, FrameSeparator, IndexOf(s, FrameSeparator));
    }
  }

  /**
   The worked example: a `sources` frame, two `text-delta` frames ("Hel", "lo") and a
   `done` frame, in any chunking, end with the one citation, the text "Hello" and no
   error. The four JSON texts are left abstract; `parse` gives their meaning.
   */
  lemma HelloScenario(c: Chat, chunks: seq<string>, parse: string -> Parsed,
                      src: string, hel: string, lo: string, done: string)
    requires forall j :: j in [src, hel, lo, done] ==> Json(j)
    requires Concat(chunks) == ("data: " + src) + "\n\n" + ("data: " + hel) + "\n\n"
                            + ("data: " + lo) + "\n\n" + ("data: " + done) + "\n\n"
    requires parse(src) == Parsed(Record(Some("sources"), None, SourceArray([Element(Some("Doc1"), None, None, map[])])))
    requires parse(hel) == Parsed(Record(Some("text-delta"), Some("Hel"), NoSources))
    requires parse(lo) == Parsed(Record(Some("text-delta"), Some("lo"), NoSources))
    requires parse(done) == Parsed(Record(Some("done"), None, NoSources))
    ensures var r := Send(c, Reply(200, "", chunks, Drained), parse);
            r.text == "Hello" && r.sources == [ChatSource(Some("Doc1"), None, None)] && r.error == None
  {
    var b := Begin(c);
    var frames := ["data: " + src, "data: " + hel, "data: " + lo, "data: " + done];
    assert Cut(Concat(chunks), FrameSeparator) == Cutting(frames, "") by {
      DataLineHasNoLf(src);
      DataLineHasNoLf(hel);
      DataLineHasNoLf(lo);
      DataLineHasNoLf(done);
      FourFrames(frames, Concat(chunks));
    }
    ReceiveAllIsWhole(b, chunks, parse);
    assert Json(src) && Json(hel) && Json(lo) && Json(done);
    HelloFold(b, parse, src, hel, lo, done);
  }

  /** A JSON text as it sits on one `data: ` line: no line feed, no surrounding white space. */
  predicate Json(j: string) {
    '\n' !in j && |j| > 0 && !IsSpace(j[0]) && !IsSpace(j[|j| - 1])
  }

  lemma DataLineHasNoLf(j: string)
    requires Json(j)
    ensures '\n' !in "data: " + j
  {
  }

  lemma FourFrames(f: seq<string>, s: string)
    requires |f| == 4 && forall i :: 0 <= i < 4 ==> '\n' !in f[i]
    requires s == f[0] + "\n\n" + f[1] + "\n\n" + f[2] + "\n\n" + f[3] + "\n\n"
    ensures Cut(s, FrameSeparator) == Cutting(f, "")
  {
    FourLines(f);
    LinesCut(f);
  }

  lemma FourLines(f: seq<string>)
    requires |f| == 4
    ensures Terminated(f, FrameSeparator)
            == f[0] + FrameSeparator + f[1] + FrameSeparator + f[2] + FrameSeparator + f[3] + FrameSeparator
  {
    var sep := FrameSeparator;
    var t3 := f[3] + sep;
    assert Terminated(f[3..], sep) == t3 by {
      TerminatedCons(f[3], [], sep);
      assert f[3..] == [f[3]] + [];
    }
    var t2 := f[2] + sep + t3;
    assert Terminated(f[2..], sep) == t2 by {
      TerminatedCons(f[2], f[3..], sep);
      assert f[2..] == [f[2]] + f[3..];
    }
    var t1 := f[1] + sep + t2;
    assert Terminated(f[1..], sep) == t1 by {
      TerminatedCons(f[1], f[2..], sep);
      assert f[1..] == [f[1]] + f[2..];
    }
    assert Terminated(f, sep) == f[0] + sep + t1 by {
      TerminatedCons(f[0], f[1..], sep);
      assert f == [f[0]] + f[1..];
    }
  }

  /** Lines without line feeds, each ended by `"\n\n"`, are cut back into those lines. */
  lemma LinesCut(lines: seq<string>)
    requires forall i :: 0 <= i < |lines| ==> '\n' !in lines[i]
    ensures Cut(Terminated(lines, FrameSeparator), FrameSeparator) == Cutting(lines, "")
  {
    forall i | 0 <= i < |lines|
      ensures IsPiece(lines[i], FrameSeparator)
    {
      LineIsPiece(lines[i]);
    }
    assert Cut("", FrameSeparator) == Cutting([], "") by {
      assert IndexOf("", FrameSeparator) == -1 by {
        assert !OccursAt("", FrameSeparator, IndexOf("", FrameSeparator));
      }
    }
    CutAfterPieces(lines, FrameSeparator, "");
    assert Terminated(lines, FrameSeparator) + "" == Terminated(lines, FrameSeparator);
    assert lines + [] == lines;
  }

  /** Folding a single frame, then the rest. */
  lemma ApplyFramesCons(c: Chat, f: string, rest: seq<string>, parse: string -> Parsed)
    ensures ApplyFrames(c, [f] + rest, parse) == ApplyFrames(ApplyValues(c, FrameValues(f), parse), rest, parse)
  {
    assert ([f] + rest)[1..] == rest;
  }

  lemma HelloFold(b: Chat, parse: string -> Parsed, src: string, hel: string, lo: string, done: string)
    requires b.text == ""
    requires Json(src) && Json(hel) && Json(lo) && Json(done)
    requires parse(src) == Parsed(Record(Some("sources"), None, SourceArray([Element(Some("Doc1"), None, None, map[])])))
    requires parse(hel) == Parsed(Record(Some("text-delta"), Some("Hel"), NoSources))
    requires parse(lo) == Parsed(Record(Some("text-delta"), Some("lo"), NoSources))
    requires parse(done) == Parsed(Record(Some("done"), None, NoSources))
    ensures var r := ApplyFrames(b, ["data: " + src, "data: " + hel, "data: " + lo, "data: " + done], parse);
            r.text == "Hello" && r.sources == [ChatSource(Some("Doc1"), None, None)]
  {
    var s1 := ApplyValue(b, src, parse);
    var s2 := ApplyValue(s1, hel, parse);
    var s3 := ApplyValue(s2, lo, parse);
    HelloValues(b, parse, src, hel, lo, done);
    var t3: seq<string> := ["data: " + done] + [];
    var t2 := ["data: " + lo] + t3;
    var t1 := ["data: " + hel] + t2;
    var t0 := ["data: " + src] + t1;
    OneFrame(s3, done, [], parse);
    OneFrame(s2, lo, t3, parse);
    OneFrame(s1, hel, t2, parse);
    OneFrame(b, src, t1, parse);
    assert t0 == ["data: " + src, "data: " + hel, "data: " + lo, "data: " + done];
  }

  /** The values of the example stream fold to "Hello" with one source, and `done` changes nothing. */
  lemma HelloValues(b: Chat, parse: string -> Parsed, src: string, hel: string, lo: string, done: string)
    requires b.text == ""
    requires parse(src) == Parsed(Record(Some("sources"), None, SourceArray([Element(Some("Doc1"), None, None, map[])])))
    requires parse(hel) == Parsed(Record(Some("text-delta"), Some("Hel"), NoSources))
    requires parse(lo) == Parsed(Record(Some("text-delta"), Some("lo"), NoSources))
    requires parse(done) == Parsed(Record(Some("done"), None, NoSources))
    ensures var s3 := ApplyValue(ApplyValue(ApplyValue(b, src, parse), hel, parse), lo, parse);
            && s3.text == "Hello" && s3.sources == [ChatSource(Some("Doc1"), None, None)]
            && ApplyValue(s3, done, parse) == s3
  {
    var s1 := ApplyValue(b, src, parse);
    assert s1.sources == [ChatSource(Some("Doc1"), None, None)] && s1.text == "" by {
      assert !HasNullElement([Element(Some("Doc1"), None, None, map[])]);
      SourcesReplaced(b, src, parse);
    }
    var s2 := ApplyValue(s1, hel, parse);
    assert s2.text == "Hel" && s2.sources == s1.sources;
  }

  /** A frame that is one `data: ` line with a JSON value folds exactly that value. */
  lemma OneFrame(c: Chat, json: string, rest: seq<string>, parse: string -> Parsed)
    requires Json(json)
    ensures ApplyFrames(c, ["data: " + json] + rest, parse) == ApplyFrames(ApplyValue(c, json, parse), rest, parse)
  {
    OneDataLine(json);
    ApplyFramesCons(c, "data: " + json, rest, parse);
    assert [json][1..] == [];
  }

  /** A frame made of one `data: ` line whose value has no surrounding white space. */
  lemma OneDataLine(json: string)
    requires Json(json)
    ensures FrameValues("data: " + json) == [json]
  {
    var line := "data: " + json;
    assert CrLfLines(line) == [line] by {
      DataLineHasNoLf(json);
      SingleLine(line);
    }
    assert DataValue(line) == Some(json) by {
      DataLineValue(json);
    }
    assert DataValues([line]) == [json] by {
      assert [line][1..] == [];
    }
  }

  lemma SingleLine(line: string)
    requires '\n' !in line
    ensures CrLfLines(line) == [line]
  {
    SplitWithout(line, '\n');
  }

  lemma DataLineValue(json: string)
    requires Json(json)
    ensures DataValue("data: " + json) == Some(json)
  {
    var line := "data: " + json;
    assert StartsWith(line, DataPrefix);
    assert line[|DataPrefix|..] == " " + json;
    assert Trim(" " + json) == json by {
      assert AllSpace(" ") && AllSpace("");
      TrimSurrounded(" ", json, "");
      assert " " + json + "" == " " + json;
    }
  }

  /**
   Reading a `data:` line back: a value written after the prefix with any white space
   around it is exactly the value the line yields.
   */
  lemma DataValueOfPadded(a: string, x: string, b: string)
    requires AllSpace(a) && AllSpace(b)
    requires x != [] && !IsSpace(x[0]) && !IsSpace(x[|x| - 1])
    ensures DataValue(DataPrefix + a + x + b) == Some(x)
  {
    var line := DataPrefix + a + x + b;
    assert StartsWith(line, DataPrefix);
    assert line[|DataPrefix|..] == a + x + b;
    TrimSurrounded(a, x, b);
  }
}

=== FILE: connection.dfy ===
/**
 The socket client's connection life cycle: the URL it derives from the API base,
 and the state machine driven by `connect`, `disconnect`, `send` and the socket's
 `open`, `error` and `close` events, with a reconnect timer after each close while
 attempts remain.

 Each socket the client creates gets a number, so that an event can come from a
 socket the client has already replaced or forgotten; the handlers do not check
 which socket they belong to, and neither does the model.
 */
module Connection {
  import opened Optional
  import opened Strings

  const MaxReconnectAttempts: nat := 5
  /** Milliseconds before a scheduled reconnect; the model counts timers, not time. */
  const ReconnectDelay: nat := 3000
  /** Milliseconds between pings; the model counts started intervals, not time. */
  const PingInterval: nat := 30000
  const ApiPath: string := "/api/v1"
  const DefaultHost: string := "localhost:3000"
  /** `http://localhost:3000/api/v1`. */
  const DefaultApiUrl: string := "http://" + DefaultHost + ApiPath
  /** `JSON.stringify({ type: 'ping' })`. */
  const PingText: string := "{\"type\":\"ping\"}"

  // ---------------------------------------------------------------------------
  // the URL

  /** `s.replace(/^https?:\/\//, '')`. */
  function StripScheme(s: string): (r: string)
    ensures StartsWith(s, "https://") ==> s == "https://" + r
    ensures StartsWith(s, "http://") ==> s == "http://" + r
    ensures !StartsWith(s, "https://") && !StartsWith(s, "http://") ==> r == s
  {
    if StartsWith(s, "https://") then
      assert s[4] != ':' && s == s[..8] + s[8..];
      s[8..]
    else if StartsWith(s, "http://") then
      assert s == s[..7] + s[7..];
      s[7..]
    else s
  }

  /** `s.replace(p, q)` with a string pattern: only the first occurrence is replaced. */
  function ReplaceFirst(s: string, p: string, q: string): (r: string)
    ensures IndexOf(s, p) < 0 ==> r == s
    ensures IndexOf(s, p) >= 0 ==>
              var i := IndexOf(s, p);
              && s == s[..i] + p + s[i + |p|..]
              && r == s[..i] + q + s[i + |p|..]
  {
    var i := IndexOf(s, p);
    if i < 0 then s
    else
      AroundOccurrence(s, p, i);
      s[..i] + q + s[i + |p|..]
  }

  /**
   The constructor's URL: `wss` exactly when the API base starts with `https`, the
   base without its `http(s)://` prefix and its first `/api/v1`, then `/ws`.
   */
  function WsUrl(env: Option<string>): (url: string)
    ensures var api := OrElse(env, DefaultApiUrl);
            && (StartsWith(url, "wss://") <==> StartsWith(api, "https"))
            && (!StartsWith(api, "https") ==> StartsWith(url, "ws://"))
            && EndsWith(url, "/ws")
  {
    var api := OrElse(env, DefaultApiUrl);
    var secure := StartsWith(api, "https");
    var mid := ReplaceFirst(StripScheme(api), ApiPath, "");
    SocketUrl(secure, mid);
    (if secure then "wss" else "ws") + "://" + mid + "/ws"
  }

  /** The shape of the socket URL: its scheme tells whether it is secure, and it ends in `/ws`. */
  lemma SocketUrl(secure: bool, mid: string)
    ensures var url := (if secure then "wss" else "ws") + "://" + mid + "/ws";
            && (StartsWith(url, "wss://") <==> secure)
            && (!secure ==> StartsWith(url, "ws://"))
            && EndsWith(url, "/ws")
  {
    var scheme := if secure then "wss" else "ws";
    var url := scheme + "://" + mid + "/ws";
    assert url[..|scheme| + 3] == scheme + "://";
    assert !secure ==> url[2] == ':';
    assert url[|url| - 3..] == "/ws";
  }

  /**
   A base `http(s)://` + `a` + `/api/v1` + `b`, whose first `/api/v1` is the one after
   `a`, maps to `ws(s)://` + `a` + `b` + `/ws`: the scheme is swapped and that one
   path segment dropped.
   */
  lemma WsUrlOfBase(secure: bool, a: string, b: string)
    requires IndexOf(a + ApiPath + b, ApiPath) == |a|
    ensures WsUrl(Some((if secure then "https://" else "http://") + a + ApiPath + b))
            == (if secure then "wss" else "ws") + "://" + a + b + "/ws"
  {
    var prefix := if secure then "https://" else "http://";
    var rest := a + ApiPath + b;
    var api := prefix + a + ApiPath + b;
    assert api == prefix + rest;
    assert OrElse(Some(api), DefaultApiUrl) == api;
    KnownScheme(secure, rest);
    assert rest[..|a|] == a && rest[|a| + |ApiPath|..] == b;
    assert ReplaceFirst(rest, ApiPath, "") == a + b;
  }

  /** A base without `/api/v1` keeps its whole text after the scheme. */
  lemma WsUrlWithoutApiPath(secure: bool, rest: string)
    requires IndexOf(rest, ApiPath) < 0
    ensures WsUrl(Some((if secure then "https://" else "http://") + rest))
            == (if secure then "wss" else "ws") + "://" + rest + "/ws"
  {
    var api := (if secure then "https://" else "http://") + rest;
    assert OrElse(Some(api), DefaultApiUrl) == api;
    KnownScheme(secure, rest);
  }

  /** The usual shape `http(s)://host/api/v1`, with no `/` in the host, gives `ws(s)://host/ws`. */
  lemma WsUrlOfHost(secure: bool, host: string)
    requires '/' !in host
    ensures WsUrl(Some((if secure then "https://" else "http://") + host + ApiPath))
            == (if secure then "wss" else "ws") + "://" + host + "/ws"
  {
    var prefix := if secure then "https://" else "http://";
    var rest := host + ApiPath;
    var api := prefix + host + ApiPath;
    assert api == prefix + rest;
    assert OrElse(Some(api), DefaultApiUrl) == api;
    KnownScheme(secure, rest);
    ApiPathAfterHost(host);
    assert rest[..|host|] == host && rest[|host| + |ApiPath|..] == [];
    assert ReplaceFirst(rest, ApiPath, "") == host;
  }

  /** Stripping a known scheme leaves the rest, and only `https://` counts as secure. */
  lemma KnownScheme(secure: bool, rest: string)
    ensures var s := (if secure then "https://" else "http://") + rest;
            && StripScheme(s) == rest
            && (StartsWith(s, "https") <==> secure)
  {
    var s := (if secure then "https://" else "http://") + rest;
    if secure {
      assert s[..8] == "https://";
      assert s[8..] == rest;
    } else {
      assert s[..7] == "http://";
      assert s[4] == ':';
      assert s[7..] == rest;
    }
  }

  /** A host without `/` holds no `/api/v1`, so the first one follows it. */
  lemma ApiPathAfterHost(host: string)
    requires '/' !in host
    ensures IndexOf(host + ApiPath, ApiPath) == |host|
  {
    var s := host + ApiPath;
    assert OccursAt(s, ApiPath, |host|) by {
      assert s[|host|..|host| + |ApiPath|] == ApiPath;
    }
    forall i | 0 <= i < |host|
      ensures !OccursAt(s, ApiPath, i)
    {
      assert s[i] == host[i] != '/';
    }
  }

  /** Without `VITE_API_URL` the socket URL is `ws://localhost:3000/ws`. */
  lemma DefaultWsUrl()
    ensures WsUrl(None) == "ws://" + DefaultHost + "/ws"
  {
    assert OrElse(None, DefaultApiUrl) == OrElse(Some(DefaultApiUrl), DefaultApiUrl);
    WsUrlOfHost(false, DefaultHost);
  }

  // ---------------------------------------------------------------------------
  // the state machine

  datatype ReadyState = Connecting | Open

  /** The socket `this.ws` refers to: which one, and whether it has opened. */
  datatype Socket = Socket(id: nat, state: ReadyState)

  datatype Client = Client(
    url: string,
    ws: Option<Socket>,
    attempts: nat,            // `reconnectAttempts`
    isConnecting: bool,
    nextId: nat,              // the number the next socket gets
    pendingReconnects: nat,   // reconnect timers set that have not fired
    scheduled: nat,           // reconnect timers set so far
    pingIntervals: nat,       // ping intervals started; none is ever cleared
    sent: seq<string>)        // what `ws.send` transmitted

  /** The service as constructed: no socket, no attempts. */
  function New(env: Option<string>): (c: Client)
    ensures c.ws.None? && c.attempts == 0 && !c.isConnecting && c.sent == []
    ensures c.url == WsUrl(env)
  {
    Client(WsUrl(env), None, 0, false, 0, 0, 0, 0, [])
  }

  /** `isConnected()`. */
  predicate IsOpen(c: Client) {
    c.ws.Some? && c.ws.value.state == Open
  }

  /**
   `connect()`: nothing while the socket is open or a connection is under way;
   otherwise a new socket. `ctorThrows` is whether `new WebSocket(url)` throws, in
   which case the `catch` leaves things as they were. The attempt counter is
   never reset here.
   */
  function Connect(c: Client, ctorThrows: bool): (r: Client)
    ensures IsOpen(c) || c.isConnecting || ctorThrows ==> r == c
    ensures !IsOpen(c) && !c.isConnecting && !ctorThrows ==>
              && r.isConnecting
              && r.ws == Some(Socket(c.nextId, Connecting))
              && r == c.(ws := r.ws, isConnecting := true, nextId := c.nextId + 1)
    ensures r.attempts == c.attempts && r.scheduled == c.scheduled
  {
    if IsOpen(c) || c.isConnecting then c
    else if ctorThrows then c.(isConnecting := false)
    else c.(ws := Some(Socket(c.nextId, Connecting)), isConnecting := true, nextId := c.nextId + 1)
  }

  /** `onopen` of socket `id`: attempts reset, connection finished, a ping interval started. */
  function Opened(c: Client, id: nat): (r: Client)
    ensures r.attempts == 0 && !r.isConnecting && r.pingIntervals == c.pingIntervals + 1
    ensures c.ws.Some? && c.ws.value.id == id ==> r.ws == Some(Socket(id, Open))
    ensures !(c.ws.Some? && c.ws.value.id == id) ==> r.ws == c.ws
    ensures r == c.(ws := r.ws, attempts := 0, isConnecting := false, pingIntervals := c.pingIntervals + 1)
  {
    var ws := if c.ws.Some? && c.ws.value.id == id then Some(c.ws.value.(state := Open)) else c.ws;
    c.(ws := ws, attempts := 0, isConnecting := false, pingIntervals := c.pingIntervals + 1)
  }

  /** `onerror`: only the connecting flag drops. */
  function Errored(c: Client, id: nat): (r: Client)
    ensures r == c.(isConnecting := false)
  {
    c.(isConnecting := false)
  }

  /**
   `onclose` of any socket: the client forgets its socket, and while attempts remain
   it counts one more and sets exactly one reconnect timer.
   */
  function Closed(c: Client, id: nat): (r: Client)
    ensures r.ws.None? && !r.isConnecting
    ensures r == c.(ws := None, isConnecting := false, attempts := r.attempts, scheduled := r.scheduled,
                    pendingReconnects := r.pendingReconnects)
    ensures c.attempts < MaxReconnectAttempts ==>
              r.attempts == c.attempts + 1 && r.scheduled == c.scheduled + 1
              && r.pendingReconnects == c.pendingReconnects + 1
    ensures c.attempts >= MaxReconnectAttempts ==>
              r.attempts == c.attempts && r.scheduled == c.scheduled
              && r.pendingReconnects == c.pendingReconnects
  {
    var c' := c.(ws := None, isConnecting := false);
    if c.attempts < MaxReconnectAttempts then
      c'.(attempts := c.attempts + 1, scheduled := c.scheduled + 1,
          pendingReconnects := c.pendingReconnects + 1)
    else c'
  }

  /** A reconnect timer fires and calls `connect()`. */
  function TimerFired(c: Client, ctorThrows: bool): (r: Client)
    ensures c.pendingReconnects == 0 ==> r == c
    ensures c.pendingReconnects > 0 ==> r == Connect(c.(pendingReconnects := c.pendingReconnects - 1), ctorThrows)
  {
    if c.pendingReconnects == 0 then c
    else Connect(c.(pendingReconnects := c.pendingReconnects - 1), ctorThrows)
  }

  /**
   `disconnect()`: with a socket, the counter jumps to the maximum so that the coming
   close schedules nothing, and the socket is forgotten; without one, nothing.
   */
  function Disconnect(c: Client): (r: Client)
    ensures c.ws.None? ==> r == c
    ensures c.ws.Some? ==> r == c.(ws := None, attempts := MaxReconnectAttempts)
  {
    if c.ws.Some? then c.(ws := None, attempts := MaxReconnectAttempts) else c
  }

  /** `send(data)`, with `data` already serialised: transmitted only on an open socket. */
  function Send(c: Client, payload: string): (r: Client)
    ensures IsOpen(c) ==> r.sent == c.sent + [payload]
    ensures !IsOpen(c) ==> r == c
    ensures r.(sent := c.sent) == c
  {
    if IsOpen(c) then c.(sent := c.sent + [payload]) else c
  }

  /** One tick of a ping interval: a ping goes out if the current socket is open. */
  function PingTick(c: Client): (r: Client)
    ensures c.pingIntervals > 0 && IsOpen(c) ==> r.sent == c.sent + [PingText]
    ensures !(c.pingIntervals > 0 && IsOpen(c)) ==> r == c
    ensures r.(sent := c.sent) == c
  {
    if c.pingIntervals > 0 then Send(c, PingText) else c
  }

  datatype Event =
    | ConnectCall(ctorThrows: bool)
    | OpenEvent(socket: nat)
    | ErrorEvent(socket: nat)
    | CloseEvent(socket: nat)
    | ReconnectTimer(ctorThrows: bool)
    | DisconnectCall
    | SendCall(payload: string)
    | PingTimer

  function Step(c: Client, e: Event): Client {
    match e
    case ConnectCall(t) => Connect(c, t)
    case OpenEvent(id) => Opened(c, id)
    case ErrorEvent(id) => Errored(c, id)
    case CloseEvent(id) => Closed(c, id)
    case ReconnectTimer(t) => TimerFired(c, t)
    case DisconnectCall => Disconnect(c)
    case SendCall(p) => Send(c, p)
    case PingTimer => PingTick(c)
  }

  function Run(c: Client, es: seq<Event>): Client
    decreases |es|
  {
    if |es| == 0 then c else Run(Step(c, es[0]), es[1..])
  }

  /**
   What every reachable state satisfies: the counter never exceeds the maximum, a
   connection under way has no open socket, and the socket is one already created.
   */
  predicate Inv(c: Client) {
    && c.attempts <= MaxReconnectAttempts
    && (c.isConnecting ==> !IsOpen(c))
    && (c.ws.Some? ==> c.ws.value.id < c.nextId)
  }

  lemma StepInv(c: Client, e: Event)
    requires Inv(c)
    ensures Inv(Step(c, e))
  {
  }

  lemma {:induction false} RunInv(c: Client, es: seq<Event>)
    requires Inv(c)
    ensures Inv(Run(c, es))
    decreases |es|
  {
    if |es| > 0 {
      StepInv(c, es[0]);
      RunInv(Step(c, es[0]), es[1..]);
    }
  }

  /** No event clears a ping interval: the number started only grows. */
  lemma {:induction false} PingIntervalsOnlyGrow(c: Client, es: seq<Event>)
    ensures Run(c, es).pingIntervals >= c.pingIntervals
    ensures Run(c, es).url == c.url
    decreases |es|
  {
    if |es| > 0 {
      PingIntervalsOnlyGrow(Step(c, es[0]), es[1..]);
    }
  }

  predicate NoOpen(es: seq<Event>) {
    forall i :: 0 <= i < |es| ==> !es[i].OpenEvent?
  }

  /**
   Without an `open` in between, every reconnect timer set is paid for by one step
   of the counter, which only grows: at most `5 - attempts` timers are set.
   */
  lemma {:induction false} ReconnectsBounded(c: Client, es: seq<Event>)
    requires Inv(c) && NoOpen(es)
    ensures var r := Run(c, es);
            && c.attempts <= r.attempts
            && c.scheduled <= r.scheduled
            && r.scheduled - c.scheduled <= r.attempts - c.attempts
            && r.scheduled - c.scheduled <= MaxReconnectAttempts - c.attempts
    decreases |es|
  {
    if |es| > 0 {
      var d := Step(c, es[0]);
      StepInv(c, es[0]);
      assert NoOpen(es[1..]) by {
        forall i | 0 <= i < |es[1..]|
          ensures !es[1..][i].OpenEvent?
        {
          assert es[1..][i] == es[i + 1];
        }
      }
      assert !es[0].OpenEvent?;
      ReconnectsBounded(d, es[1..]);
      RunInv(d, es[1..]);
    }
  }

  /** After `disconnect()` of a live socket, no event sequence without an `open` sets a reconnect timer. */
  lemma NoReconnectAfterDisconnect(c: Client, es: seq<Event>)
    requires Inv(c) && c.ws.Some? && NoOpen(es)
    ensures Run(Disconnect(c), es).scheduled == c.scheduled
  {
    StepInv(c, DisconnectCall);
    ReconnectsBounded(Disconnect(c), es);
  }

  /**
   `connect()` does not reset the counter: after five failed reconnects a manual
   `connect()` opens a socket whose close sets no new timer.
   */
  lemma ConnectKeepsCounter(c: Client, id: nat)
    requires c.attempts == MaxReconnectAttempts && c.ws.None? && !c.isConnecting
    ensures var r := Closed(Connect(c, false), id);
            r.scheduled == c.scheduled && r.pendingReconnects == c.pendingReconnects
  {
  }

  /**
   The close event of a socket that `disconnect()` let go arrives after a new
   `connect()`: it clears the new socket from the client, so that once the new socket
   opens, `isConnected()` still reports false.
   */
  lemma LateCloseForgetsNewSocket(env: Option<string>)
    ensures var r := Run(New(env), [ConnectCall(false), OpenEvent(0), DisconnectCall,
                                     ConnectCall(false), CloseEvent(0), OpenEvent(1)]);
            !IsOpen(r) && r.ws.None? && r.nextId == 2 && r.attempts == 0
  {
    var c0 := New(env);
    var c1 := Connect(c0, false);
    var c2 := Opened(c1, 0);
    var c3 := Disconnect(c2);
    var c4 := Connect(c3, false);
    assert c4.ws == Some(Socket(1, Connecting)) && c4.nextId == 2;
    var c5 := Closed(c4, 0);
    assert c5.ws.None?;
    var c6 := Opened(c5, 1);
    var es := [ConnectCall(false), OpenEvent(0), DisconnectCall, ConnectCall(false), CloseEvent(0), OpenEvent(1)];
    assert Run(c0, es) == Run(c1, es[1..]);
    assert Run(c1, es[1..]) == Run(c2, es[2..]);
    assert Run(c2, es[2..]) == Run(c3, es[3..]);
    assert Run(c3, es[3..]) == Run(c4, es[4..]);
    assert Run(c4, es[4..]) == Run(c5, es[5..]);
    assert Run(c5, es[5..]) == Run(c6, []);
  }
}

=== FILE: cuts.dfy ===
/**
 Cutting a growing text buffer at a separator, the way both stream readers do it:
 repeatedly take `buffer.indexOf(sep)`, emit the text before it, and keep what
 follows. The main result is chunk-boundary independence: feeding a text to the
 cutter in any chunking emits exactly the pieces of cutting the whole text at once,
 and leaves the same carry-over.
 */
module Cuts {
  import opened Strings

  /** The pieces cut off so far and the carry-over that holds no complete separator. */
  datatype Cutting = Cutting(pieces: seq<string>, rest: string)

  /** Every piece followed by the separator, concatenated. */
  function Terminated(pieces: seq<string>, sep: string): string {
    if |pieces| == 0 then "" else pieces[0] + sep + Terminated(pieces[1..], sep)
  }

  /**
   `b` can be a piece: in `b + sep` the separator's only occurrence is the final one,
   so `indexOf` on any text starting with `b + sep` finds exactly that one.
   */
  predicate IsPiece(b: string, sep: string) {
    forall i :: 0 <= i < |b| ==> !OccursAt(b + sep, sep, i)
  }

  /** True when `sep` does not occur in `s` at all. */
  ghost predicate Free(s: string, sep: string) {
    forall i :: !OccursAt(s, sep, i)
  }

  /**
   The loop `while ((idx = buffer.indexOf(sep)) !== -1) { emit(buffer.slice(0, idx));
   buffer = buffer.slice(idx + sep.length) }`, as a function: every piece is the text
   before the first remaining separator, and the carry-over holds no separator.
   `CutShape` shows that every piece is one and the carry-over is free of the
   separator; `CutJoin` that pieces and carry-over together are the whole text.
   */
  function Cut(s: string, sep: string): Cutting
    requires |sep| > 0
    decreases |s|
  {
    var idx := IndexOf(s, sep);
    if idx < 0 then Cutting([], s)
    else
      var tail := Cut(s[idx + |sep|..], sep);
      Cutting([s[..idx]] + tail.pieces, tail.rest)
  }

  /** Every piece `Cut` emits ends at the first separator, and the carry-over holds none. */
  lemma {:induction false} CutShape(s: string, sep: string)
    requires |sep| > 0
    ensures forall i :: 0 <= i < |Cut(s, sep).pieces| ==> IsPiece(Cut(s, sep).pieces[i], sep)
    ensures Free(Cut(s, sep).rest, sep)
    decreases |s|
  {
    var idx := IndexOf(s, sep);
    if idx >= 0 {
      var tail := Cut(s[idx + |sep|..], sep);
      CutShape(s[idx + |sep|..], sep);
      PrefixIsPiece(s, sep, idx);
      var ps := [s[..idx]] + tail.pieces;
      assert Cut(s, sep).pieces == ps;
      forall i | 0 <= i < |ps|
        ensures IsPiece(ps[i], sep)
      {
        if i > 0 {
          assert ps[i] == tail.pieces[i - 1];
        }
      }
    }
  }

  lemma TerminatedCons(b: string, ps: seq<string>, sep: string)
    ensures Terminated([b] + ps, sep) == b + sep + Terminated(ps, sep)
  {
    assert ([b] + ps)[1..] == ps;
  }

  /** Nothing is lost or reordered: the pieces, each with its separator, then the carry-over, give `s`. */
  lemma {:induction false} CutJoin(s: string, sep: string)
    requires |sep| > 0
    ensures s == Terminated(Cut(s, sep).pieces, sep) + Cut(s, sep).rest
    decreases |s|
  {
    var idx := IndexOf(s, sep);
    if idx >= 0 {
      var after := s[idx + |sep|..];
      var tail := Cut(after, sep);
      assert after == Terminated(tail.pieces, sep) + tail.rest by {
        CutJoin(after, sep);
      }
      CutJoinStep(s, sep, idx, tail);
      assert Cut(s, sep) == Cutting([s[..idx]] + tail.pieces, tail.rest);
    } else {
      assert Terminated([], sep) == "";
      assert "" + s == s;
    }
  }

  lemma CutJoinStep(s: string, sep: string, idx: int, tail: Cutting)
    requires |sep| > 0 && 0 <= idx && OccursAt(s, sep, idx)
    requires s[idx + |sep|..] == Terminated(tail.pieces, sep) + tail.rest
    ensures s == Terminated([s[..idx]] + tail.pieces, sep) + tail.rest
  {
    var b, after := s[..idx], s[idx + |sep|..];
    var t := Terminated(tail.pieces, sep);
    calc {
      s;
      { AroundOccurrence(s, sep, idx); }
      b + sep + after;
      b + sep + (t + tail.rest);
      (b + sep + t) + tail.rest;
      { TerminatedCons(b, tail.pieces, sep); }
      Terminated([b] + tail.pieces, sep) + tail.rest;
    }
  }

  /** The text before the first occurrence of the separator is a piece. */
  lemma PrefixIsPiece(s: string, sep: string, idx: int)
    requires |sep| > 0 && idx >= 0 && idx == IndexOf(s, sep)
    ensures IsPiece(s[..idx], sep)
    ensures s[..idx] + sep == s[..idx + |sep|]
  {
    var b := s[..idx];
    assert b + sep == s[..idx + |sep|];
    forall i | 0 <= i < |b|
      ensures !OccursAt(b + sep, sep, i)
    {
      OccursInConcat(s[..idx + |sep|], s[idx + |sep|..], sep, i);
      assert s[..idx + |sep|] + s[idx + |sep|..] == s;
    }
  }

  /** A text that starts with a piece and its separator is cut right there. */
  lemma CutAfterPiece(b: string, sep: string, t: string)
    requires |sep| > 0 && IsPiece(b, sep)
    ensures Cut(b + sep + t, sep) == Cutting([b] + Cut(t, sep).pieces, Cut(t, sep).rest)
  {
    var s := b + sep + t;
    assert OccursAt(s, sep, |b|) by {
      assert s[|b|..|b| + |sep|] == sep;
    }
    forall i | 0 <= i < |b|
      ensures !OccursAt(s, sep, i)
    {
      OccursInConcat(b + sep, t, sep, i);
    }
    var idx := IndexOf(s, sep);
    assert idx == |b|;
    assert s[..idx] == b;
    assert s[idx + |sep|..] == t;
  }

  /** Cutting text that starts with already-cut pieces re-emits those pieces first. */
  lemma {:induction false} CutAfterPieces(ps: seq<string>, sep: string, t: string)
    requires |sep| > 0
    requires forall i :: 0 <= i < |ps| ==> IsPiece(ps[i], sep)
    ensures Cut(Terminated(ps, sep) + t, sep) == Cutting(ps + Cut(t, sep).pieces, Cut(t, sep).rest)
    decreases |ps|
  {
    if |ps| == 0 {
      assert Terminated(ps, sep) + t == t;
    } else {
      var tail := Terminated(ps[1..], sep) + t;
      assert Terminated(ps, sep) + t == ps[0] + sep + tail;
      var ct := Cut(t, sep);
      assert Cut(ps[0] + sep + tail, sep) == Cutting([ps[0]] + Cut(tail, sep).pieces, Cut(tail, sep).rest) by {
        CutAfterPiece(ps[0], sep, tail);
      }
      assert Cut(tail, sep) == Cutting(ps[1..] + ct.pieces, ct.rest) by {
        forall i | 0 <= i < |ps[1..]|
          ensures IsPiece(ps[1..][i], sep)
        {
          assert ps[1..][i] == ps[i + 1];
        }
        CutAfterPieces(ps[1..], sep, t);
      }
      assert [ps[0]] + (ps[1..] + ct.pieces) == ps + ct.pieces by {
        assert ps == [ps[0]] + ps[1..];
      }
    }
  }

  /** One chunk arrives: append it to the carry-over and cut what is now complete. */
  function Feed(c: Cutting, chunk: string, sep: string): (r: Cutting)
    requires |sep| > 0
    ensures Free(r.rest, sep)
    ensures |r.pieces| >= |c.pieces| && r.pieces[..|c.pieces|] == c.pieces
  {
    var n := Cut(c.rest + chunk, sep);
    CutShape(c.rest + chunk, sep);
    Cutting(c.pieces + n.pieces, n.rest)
  }

  /** All chunks concatenated, in order. */
  function Concat(chunks: seq<string>): string {
    if |chunks| == 0 then "" else Concat(chunks[..|chunks| - 1]) + chunks[|chunks| - 1]
  }

  /** Feeding the chunks one by one, starting from an empty buffer. */
  function FeedAll(chunks: seq<string>, sep: string): Cutting
    requires |sep| > 0
  {
    if |chunks| == 0 then Cutting([], "")
    else Feed(FeedAll(chunks[..|chunks| - 1], sep), chunks[|chunks| - 1], sep)
  }

  /**
   Chunk-boundary independence: however the text is chunked, the pieces emitted and
   the final carry-over are those of cutting the whole text in one go.
   */
  lemma {:induction false} FeedAllIsCut(chunks: seq<string>, sep: string)
    requires |sep| > 0
    ensures FeedAll(chunks, sep) == Cut(Concat(chunks), sep)
    decreases |chunks|
  {
    if |chunks| == 0 {
      assert Cut("", sep) == Cutting([], "") by {
        assert IndexOf("", sep) == -1 by {
          assert !OccursAt("", sep, IndexOf("", sep));
        }
      }
    } else {
      var init, last := chunks[..|chunks| - 1], chunks[|chunks| - 1];
      var c := Cut(Concat(init), sep);
      assert FeedAll(init, sep) == c by {
        FeedAllIsCut(init, sep);
      }
      calc {
        Concat(chunks);
        Concat(init) + last;
        { CutJoin(Concat(init), sep); }
        (Terminated(c.pieces, sep) + c.rest) + last;
        Terminated(c.pieces, sep) + (c.rest + last);
      }
      CutShape(Concat(init), sep);
      CutAfterPieces(c.pieces, sep, c.rest + last);
    }
  }

  /** The same text chunked two ways is cut the same way. */
  lemma ChunkingIrrelevant(xs: seq<string>, ys: seq<string>, sep: string)
    requires |sep| > 0 && Concat(xs) == Concat(ys)
    ensures FeedAll(xs, sep) == FeedAll(ys, sep)
  {
    FeedAllIsCut(xs, sep);
    FeedAllIsCut(ys, sep);
  }
}

=== FILE: fetch.dfy ===
/** What the Fetch API hands the two stream readers, reduced to what they look at. */
module Fetch {

  /** How reading the body ends: the reader reports `done`, or a pending read rejects. */
  datatype ReadEnd = Drained | ReadRejected(message: string)

  /** `response.ok`: the status is in the range 200-299. */
  predicate Ok(status: int) {
    200 <= status <= 299
  }
}

=== FILE: line_stream.dfy ===
/**
 The two async generators of the chat service client, `chat` (answers grounded in the
 knowledge base, with citations) and `simpleChat` (no citations). Both read the body
 as text, split it at line feeds, keep the unfinished last line for the next chunk,
 and turn every `data: ` line into a record. `text` records grow one assistant
 message and yield a snapshot of it; a `done` record yields the message once more and
 ends the generator.

 The two generators differ only in `sources` handling, so one model with a `Mode`
 covers both. `JSON.parse` is the parameter `parse`.
 */
module LineStream {
  import opened Optional
  import opened Strings
  import opened Cuts
  import opened Fetch

  const DefaultApiBase: string := "http://localhost:3000/api/v1"
  /** Unlike the composable's `data:`, the prefix here includes the space. */
  const DataPrefix: string := "data: "
  const ChatFailure: string := "Failed to send chat message"
  const SimpleChatFailure: string := "Failed to send simple chat message"
  const NullBody: string := "Response body is null"

  /** `chat` keeps citations; `simpleChat` ignores `sources` records. */
  datatype Mode = Rag | Simple

  datatype SourceDocument = SourceDocument(id: string, title: string, score: real, category: string)

  /** A yielded message; its role is always `assistant`. */
  datatype Message = Message(content: string, sources: Option<seq<SourceDocument>>)

  /**
   The fields of a parsed record that the generators read: `type`, `text` and
   `sources` (`None` when the field is missing or `null`).
   */
  datatype Record = Record(kind: Option<string>, text: string, sources: Option<seq<SourceDocument>>)

  /** What `JSON.parse` makes of the text after `data: `. */
  datatype Parsed = Unparseable | ParsedNull | Parsed(record: Record)

  /**
   The generator's locals: `currentMessage`, `sources` (only `chat` has it), the
   messages yielded so far, and whether it has returned.
   */
  datatype Gen = Gen(current: Option<Message>, sources: Option<seq<SourceDocument>>,
                     yielded: seq<Message>, finished: bool)

  function Init(): Gen {
    Gen(None, Some([]), [], false)
  }

  /** The URL the generator posts to: `VITE_API_URL || default`, then the route. */
  function Endpoint(env: Option<string>, mode: Mode): (url: string)
    ensures Truthy(env) ==> url == env.value + (if mode == Rag then "/chat" else "/chat/simple")
    ensures !Truthy(env) ==> url == DefaultApiBase + (if mode == Rag then "/chat" else "/chat/simple")
    ensures EndsWith(url, if mode == Rag then "/chat" else "/chat/simple")
  {
    OrElse(env, DefaultApiBase) + (if mode == Rag then "/chat" else "/chat/simple")
  }

  // ---------------------------------------------------------------------------
  // one record

  /**
   The body of the `try` for one parsed record. A thrown `error` record, and the
   `TypeError` of reading `sources.length` when `sources` was set to nothing, are
   caught and change nothing.
   */
  function HandleRecord(g: Gen, rec: Record, mode: Mode): (r: Gen)
    ensures |g.yielded| <= |r.yielded| <= |g.yielded| + 1 && r.yielded[..|g.yielded|] == g.yielded
    ensures r.finished == (g.finished || rec.kind == Some("done"))
    ensures mode == Simple ==> r.sources == g.sources
    ensures r.sources != g.sources ==> rec.kind == Some("sources") && r.sources == rec.sources
    ensures mode == Rag && rec.kind == Some("sources") ==> r == g.(sources := rec.sources)
    ensures rec.kind != Some("text") && rec.kind != Some("done") ==> r.(sources := g.sources) == g
    ensures rec.kind == Some("text") && g.current.Some? ==>
              && r.current == Some(g.current.value.(content := g.current.value.content + rec.text))
              && r.yielded == g.yielded + [r.current.value]
    ensures rec.kind == Some("text") && g.current.None? && mode == Rag && g.sources.None? ==> r == g
    ensures rec.kind == Some("text") && g.current.None? && (mode == Simple || g.sources.Some?) ==>
              && r.current == Some(Message(rec.text, if mode == Rag && g.sources.value != [] then g.sources else None))
              && r.yielded == g.yielded + [r.current.value]
    ensures rec.kind == Some("done") ==>
              r.yielded == g.yielded + (if g.current.Some? then [g.current.value] else [])
  {
    if mode == Rag && rec.kind == Some("sources") then
      g.(sources := rec.sources)
    else if rec.kind == Some("text") then
      match g.current
      case Some(m) =>
        var grown := m.(content := m.content + rec.text);
        g.(current := Some(grown), yielded := g.yielded + [grown])
      case None =>
        if mode == Rag && g.sources.None? then g
        else
          var first := Message(rec.text, if mode == Rag && |g.sources.value| > 0 then g.sources else None);
          g.(current := Some(first), yielded := g.yielded + [first])
    else if rec.kind == Some("done") then
      g.(yielded := g.yielded + (if g.current.Some? then [g.current.value] else []), finished := true)
    else
      g
  }

  /**
   What a well-formed generator state looks like: every yielded message carries the
   sources of the current one, the last yielded message is the current one, and
   contents only grow. Without a current message nothing was yielded.
   */
  ghost predicate Consistent(g: Gen, mode: Mode) {
    && (g.current.None? ==> g.yielded == [])
    && (g.current.Some? ==>
          && |g.yielded| > 0
          && g.yielded[|g.yielded| - 1] == g.current.value
          && (forall i :: 0 <= i < |g.yielded| ==> g.yielded[i].sources == g.current.value.sources)
          && (mode == Simple ==> g.current.value.sources.None?))
    && (forall i, j :: 0 <= i <= j < |g.yielded| ==> IsPrefix(g.yielded[i].content, g.yielded[j].content))
  }

  lemma HandleRecordConsistent(g: Gen, rec: Record, mode: Mode)
    requires Consistent(g, mode)
    ensures Consistent(HandleRecord(g, rec, mode), mode)
  {
    var r := HandleRecord(g, rec, mode);
    if rec.kind == Some("text") {
      if g.current.Some? {
        YieldGrown(g, r, mode);
      } else if !(mode == Rag && g.sources.None?) {
        YieldFirst(g, r, mode);
      }
    } else if rec.kind == Some("done") {
      if g.current.Some? {
        YieldGrown(g, r, mode);
      }
    }
  }

  /** The first message starts a consistent history. */
  lemma YieldFirst(g: Gen, r: Gen, mode: Mode)
    requires Consistent(g, mode) && g.current.None?
    requires r.current.Some? && r.yielded == g.yielded + [r.current.value]
    requires mode == Simple ==> r.current.value.sources.None?
    ensures Consistent(r, mode)
  {
    assert r.yielded == [r.current.value];
  }

  /**
   Yielding a message that extends the current one, with the same citations, keeps
   the state consistent.
   */
  lemma YieldGrown(g: Gen, r: Gen, mode: Mode)
    requires Consistent(g, mode) && g.current.Some? && r.current.Some?
    requires r.yielded == g.yielded + [r.current.value]
    requires IsPrefix(g.current.value.content, r.current.value.content)
    requires r.current.value.sources == g.current.value.sources
    ensures Consistent(r, mode)
  {
    var n := |g.yielded|;
    forall i, j | 0 <= i <= j < |r.yielded|
      ensures IsPrefix(r.yielded[i].content, r.yielded[j].content)
    {
      if j == n && i < n {
        assert r.yielded[i] == g.yielded[i];
        assert IsPrefix(g.yielded[i].content, g.yielded[n - 1].content);
      } else if j < n {
        assert r.yielded[i] == g.yielded[i] && r.yielded[j] == g.yielded[j];
      }
    }
  }

  // ---------------------------------------------------------------------------
  // lines

  /**
   The record a line carries: blank lines and lines without the `data: ` prefix carry
   none, and so does a value that does not parse to an object.
   */
  function LineRecord(line: string, parse: string -> Parsed): (r: Option<Record>)
    ensures r.Some? ==> StartsWith(line, DataPrefix) && parse(line[|DataPrefix|..]) == Parsed(r.value)
    ensures StartsWith(line, DataPrefix) && parse(line[|DataPrefix|..]).Parsed? ==>
              r == Some(parse(line[|DataPrefix|..]).record)
  {
    if Trim(line) == "" then None
    else if StartsWith(line, DataPrefix) then
      match parse(line[|DataPrefix|..])
      case Parsed(rec) => Some(rec)
      case _ => None
    else None
  }

  /** The blank-line test never hides a `data: ` line. */
  lemma DataLineNotBlank(line: string)
    requires StartsWith(line, DataPrefix)
    ensures Trim(line) != ""
  {
    assert line[0] == 'd' && !IsSpace(line[0]);
    assert !AllSpace(line);
  }

  function HandleLine(g: Gen, line: string, mode: Mode, parse: string -> Parsed): Gen {
    match LineRecord(line, parse)
    case Some(rec) => HandleRecord(g, rec, mode)
    case None => g
  }

  /** The `for (const line of lines)` loop; `return` on `done` skips the remaining lines. */
  function HandleLines(g: Gen, lines: seq<string>, mode: Mode, parse: string -> Parsed): (r: Gen)
    ensures g.finished ==> r == g
    ensures |r.yielded| >= |g.yielded| && r.yielded[..|g.yielded|] == g.yielded
    decreases |lines|
  {
    if |lines| == 0 then g
    else
      var h := HandleLines(g, lines[..|lines| - 1], mode, parse);
      if h.finished then h else HandleLine(h, lines[|lines| - 1], mode, parse)
  }

  lemma {:induction false} HandleLinesConcat(g: Gen, a: seq<string>, b: seq<string>, mode: Mode,
                                             parse: string -> Parsed)
    ensures HandleLines(g, a + b, mode, parse) == HandleLines(HandleLines(g, a, mode, parse), b, mode, parse)
    decreases |b|
  {
    if |b| == 0 {
      assert a + b == a;
    } else {
      assert (a + b)[..|a + b| - 1] == a + b[..|b| - 1];
      assert (a + b)[|a + b| - 1] == b[|b| - 1];
      HandleLinesConcat(g, a, b[..|b| - 1], mode, parse);
    }
  }

  /** A `done` line ends the generator: whatever lines follow it change nothing. */
  lemma AfterDoneNothing(g: Gen, a: seq<string>, done: string, b: seq<string>, mode: Mode, parse: string -> Parsed)
    requires LineRecord(done, parse).Some? && LineRecord(done, parse).value.kind == Some("done")
    ensures HandleLines(g, a + [done] + b, mode, parse) == HandleLines(g, a + [done], mode, parse)
    ensures HandleLines(g, a + [done], mode, parse).finished
  {
    HandleLinesConcat(g, a + [done], b, mode, parse);
    assert (a + [done])[..|a + [done]| - 1] == a;
  }

  /** The records the lines carry, in order. */
  function Records(lines: seq<string>, parse: string -> Parsed): seq<Record> {
    if |lines| == 0 then []
    else
      Records(lines[..|lines| - 1], parse)
      + match LineRecord(lines[|lines| - 1], parse) case Some(rec) => [rec] case None => []
  }

  function HandleRecords(g: Gen, rs: seq<Record>, mode: Mode): Gen
    decreases |rs|
  {
    if |rs| == 0 then g
    else
      var h := HandleRecords(g, rs[..|rs| - 1], mode);
      if h.finished then h else HandleRecord(h, rs[|rs| - 1], mode)
  }

  /** Lines that carry no record are skipped: handling the lines is handling their records. */
  lemma {:induction false} LinesAreRecords(g: Gen, lines: seq<string>, mode: Mode, parse: string -> Parsed)
    ensures HandleLines(g, lines, mode, parse) == HandleRecords(g, Records(lines, parse), mode)
    decreases |lines|
  {
    if |lines| > 0 {
      var init := lines[..|lines| - 1];
      var rs := Records(init, parse);
      LinesAreRecords(g, init, mode, parse);
      match LineRecord(lines[|lines| - 1], parse)
      case Some(rec) =>
        assert Records(lines, parse) == rs + [rec];
        assert (rs + [rec])[..|rs|] == rs;
      case None =>
        assert Records(lines, parse) == rs;
        RecordsFinished(g, rs, mode);
    }
  }

  /** Once the generator has returned, nothing changes it. */
  lemma {:induction false} RecordsFinished(g: Gen, rs: seq<Record>, mode: Mode)
    ensures var h := HandleRecords(g, rs, mode); h.finished ==> HandleRecords(h, [], mode) == h
  {
  }

  lemma {:induction false} HandleRecordsConsistent(g: Gen, rs: seq<Record>, mode: Mode)
    requires Consistent(g, mode)
    ensures Consistent(HandleRecords(g, rs, mode), mode)
    decreases |rs|
  {
    if |rs| > 0 {
      HandleRecordsConsistent(g, rs[..|rs| - 1], mode);
      var h := HandleRecords(g, rs[..|rs| - 1], mode);
      if !h.finished {
        HandleRecordConsistent(h, rs[|rs| - 1], mode);
      }
    }
  }

  /**
   Over a whole stream, every snapshot carries the same citations (none at all for
   `simpleChat`), and each snapshot's content extends the one before.
   */
  lemma SnapshotsAgree(lines: seq<string>, mode: Mode, parse: string -> Parsed)
    ensures var y := HandleLines(Init(), lines, mode, parse).yielded;
            && (forall i, j :: 0 <= i < |y| && 0 <= j < |y| ==> y[i].sources == y[j].sources)
            && (mode == Simple ==> forall i :: 0 <= i < |y| ==> y[i].sources.None?)
            && (forall i, j :: 0 <= i <= j < |y| ==> IsPrefix(y[i].content, y[j].content))
  {
    LinesAreRecords(Init(), lines, mode, parse);
    HandleRecordsConsistent(Init(), Records(lines, parse), mode);
  }

  // ---------------------------------------------------------------------------
  // contents of the snapshots

  /** True when one of the records is a `done` record. */
  predicate HasDone(rs: seq<Record>) {
    exists i :: 0 <= i < |rs| && rs[i].kind == Some("done")
  }

  /**
   Every `sources` record that arrives before the first `text` payload, and before any
   `done`, carries a list. Only such a record can matter: once a message exists,
   `sources.length` is no longer read.
   */
  predicate SourcesListedEarly(rs: seq<Record>) {
    forall i :: 0 <= i < |rs| && rs[i].kind == Some("sources") && !HasDone(rs[..i]) && Texts(rs[..i]) == [] ==>
      rs[i].sources.Some?
  }

  /** The reference: the `text` payloads that arrive before the first `done`, in order. */
  function Texts(rs: seq<Record>): seq<string>
    decreases |rs|
  {
    if |rs| == 0 then []
    else
      var init, last := rs[..|rs| - 1], rs[|rs| - 1];
      if HasDone(init) || last.kind != Some("text") then Texts(init) else Texts(init) + [last.text]
  }

  lemma HasDoneSnoc(rs: seq<Record>)
    requires |rs| > 0
    ensures HasDone(rs) <==> HasDone(rs[..|rs| - 1]) || rs[|rs| - 1].kind == Some("done")
  {
    var init := rs[..|rs| - 1];
    if HasDone(rs) && rs[|rs| - 1].kind != Some("done") {
      var i :| 0 <= i < |rs| && rs[i].kind == Some("done");
      assert init[i] == rs[i];
    }
    if HasDone(init) {
      var i :| 0 <= i < |init| && init[i].kind == Some("done");
      assert rs[i] == init[i];
    }
  }

  /** The snapshots so far spell out the running concatenations of `ts`. */
  ghost predicate Accumulated(g: Gen, ts: seq<string>) {
    && |g.yielded| == |ts| + (if g.finished && |ts| > 0 then 1 else 0)
    && (forall k :: 0 <= k < |ts| ==> g.yielded[k].content == Concat(ts[..k + 1]))
    && (g.current.Some? <==> |ts| > 0)
    && (|ts| > 0 ==> g.current.value.content == Concat(ts))
    && (|ts| == 0 ==> g.sources.Some?)
  }

  lemma AccumulateStep(h: Gen, ts: seq<string>, rec: Record, mode: Mode)
    requires Accumulated(h, ts) && !h.finished
    requires mode == Rag && rec.kind == Some("sources") && ts == [] ==> rec.sources.Some?
    ensures Accumulated(HandleRecord(h, rec, mode), if rec.kind == Some("text") then ts + [rec.text] else ts)
  {
    var g := HandleRecord(h, rec, mode);
    if rec.kind == Some("text") {
      var ts' := ts + [rec.text];
      assert Concat(ts') == Concat(ts) + rec.text by {
        assert ts'[..|ts'| - 1] == ts;
      }
      forall k | 0 <= k < |ts'|
        ensures g.yielded[k].content == Concat(ts'[..k + 1])
      {
        if k < |ts| {
          assert ts'[..k + 1] == ts[..k + 1];
          assert g.yielded[k] == h.yielded[k];
        } else {
          assert ts'[..k + 1] == ts';
          if h.current.None? {
            assert Concat(ts) == "";
          }
        }
      }
    }
  }

  /**
   The k-th snapshot holds the first k+1 `text` payloads, concatenated. Without a
   `done` there are exactly as many snapshots as payloads; a `done` after some text
   adds one more, and the generator has returned exactly when a `done` arrived.
   */
  lemma {:induction false} ContentsAccumulate(rs: seq<Record>, mode: Mode)
    requires mode == Simple || SourcesListedEarly(rs)
    ensures var g, ts := HandleRecords(Init(), rs, mode), Texts(rs);
            && g.finished == HasDone(rs)
            && |g.yielded| == |ts| + (if g.finished && |ts| > 0 then 1 else 0)
            && (forall k :: 0 <= k < |ts| ==> g.yielded[k].content == Concat(ts[..k + 1]))
            && (g.finished && |ts| > 0 ==> g.yielded[|ts|].content == Concat(ts))
    decreases |rs|
  {
    AccumulatedRecords(rs, mode);
    HandleRecordsConsistent(Init(), rs, mode);
  }

  lemma {:induction false} AccumulatedRecords(rs: seq<Record>, mode: Mode)
    requires mode == Simple || SourcesListedEarly(rs)
    ensures var g := HandleRecords(Init(), rs, mode);
            Accumulated(g, Texts(rs)) && g.finished == HasDone(rs)
    decreases |rs|
  {
    if |rs| == 0 {
      assert Texts(rs) == [];
    } else {
      var init, last := rs[..|rs| - 1], rs[|rs| - 1];
      assert mode == Simple || SourcesListedEarly(init) by {
        if mode == Rag {
          forall i | 0 <= i < |init| && init[i].kind == Some("sources") && !HasDone(init[..i]) && Texts(init[..i]) == []
            ensures init[i].sources.Some?
          {
            assert init[..i] == rs[..i];
            assert init[i] == rs[i];
          }
        }
      }
      AccumulatedRecords(init, mode);
      HasDoneSnoc(rs);
      var h := HandleRecords(Init(), init, mode);
      if !h.finished {
        assert mode == Rag && last.kind == Some("sources") && Texts(init) == [] ==> last.sources.Some? by {
          if mode == Rag {
            assert rs[..|rs| - 1] == init && rs[|rs| - 1] == last;
          }
        }
        AccumulateStep(h, Texts(init), last, mode);
      }
    }
  }

  /** `simpleChat` is `chat` on a stream that has no `sources` record. */
  lemma {:induction false} SimpleIsChatWithoutSources(rs: seq<Record>)
    requires forall i :: 0 <= i < |rs| ==> rs[i].kind != Some("sources")
    ensures HandleRecords(Init(), rs, Simple) == HandleRecords(Init(), rs, Rag)
    ensures HandleRecords(Init(), rs, Rag).sources == Some([])
    decreases |rs|
  {
    if |rs| > 0 {
      var init := rs[..|rs| - 1];
      assert forall i :: 0 <= i < |init| ==> init[i] == rs[i];
      SimpleIsChatWithoutSources(init);
    }
  }

  /**
   A `sources` record without a list, before the first `text`, makes `chat` drop
   every later `text` payload until a list arrives: `sources.length` throws each time.
   */
  lemma {:induction false} MissingSourcesDropText(g: Gen, rs: seq<Record>)
    requires g.current.None? && g.sources.None? && !g.finished
    requires forall i :: 0 <= i < |rs| ==> rs[i].kind == Some("text")
    ensures HandleRecords(g, rs, Rag) == g
    decreases |rs|
  {
    if |rs| > 0 {
      var init := rs[..|rs| - 1];
      assert forall i :: 0 <= i < |init| ==> init[i] == rs[i];
      MissingSourcesDropText(g, init);
      assert rs[|rs| - 1].kind == Some("text");
    }
  }

  // ---------------------------------------------------------------------------
  // the read loop

  /** The generator together with the line buffer of the read loop. */
  datatype Reading = Reading(gen: Gen, buffer: string)

  /**
   One `reader.read()`: append the chunk, handle every complete line, keep the
   unfinished one (`lines.pop()`). Once the generator has returned there are no
   more reads.
   */
  function Receive(rd: Reading, chunk: string, mode: Mode, parse: string -> Parsed): (r: Reading)
    ensures rd.gen.finished ==> r == rd
    ensures !rd.gen.finished ==> '\n' !in r.buffer && EndsWith(rd.buffer + chunk, r.buffer)
  {
    if rd.gen.finished then rd
    else
      var text := rd.buffer + chunk;
      TrailingIsSuffix(text, '\n');
      Reading(HandleLines(rd.gen, Complete(text, '\n'), mode, parse), Trailing(text, '\n'))
  }

  function ReceiveAll(rd: Reading, chunks: seq<string>, mode: Mode, parse: string -> Parsed): Reading
    decreases |chunks|
  {
    if |chunks| == 0 then rd
    else Receive(ReceiveAll(rd, chunks[..|chunks| - 1], mode, parse), chunks[|chunks| - 1], mode, parse)
  }

  /**
   Chunk-boundary independence: reading the chunks one by one from an empty buffer
   handles exactly the complete lines of the whole text, and, unless the generator
   returned, leaves its unfinished last line in the buffer.
   */
  lemma {:induction false} ReceiveAllIsWhole(g: Gen, chunks: seq<string>, mode: Mode, parse: string -> Parsed)
    ensures var r, s := ReceiveAll(Reading(g, ""), chunks, mode, parse), Concat(chunks);
            && r.gen == HandleLines(g, Complete(s, '\n'), mode, parse)
            && (!r.gen.finished ==> r.buffer == Trailing(s, '\n'))
    decreases |chunks|
  {
    if |chunks| == 0 {
      assert Split("", '\n') == [""];
    } else {
      var init, last := chunks[..|chunks| - 1], chunks[|chunks| - 1];
      var s := Concat(init);
      ReceiveAllIsWhole(g, init, mode, parse);
      var before := ReceiveAll(Reading(g, ""), init, mode, parse);
      CompleteConcat(s, last, '\n');
      HandleLinesConcat(g, Complete(s, '\n'), Complete(Trailing(s, '\n') + last, '\n'), mode, parse);
    }
  }

  /** The same text chunked two ways gives the same generator. */
  lemma ChunkingIrrelevant(g: Gen, xs: seq<string>, ys: seq<string>, mode: Mode, parse: string -> Parsed)
    requires Concat(xs) == Concat(ys)
    ensures ReceiveAll(Reading(g, ""), xs, mode, parse).gen == ReceiveAll(Reading(g, ""), ys, mode, parse).gen
  {
    ReceiveAllIsWhole(g, xs, mode, parse);
    ReceiveAllIsWhole(g, ys, mode, parse);
  }

  /** A last line without a line feed is never handled, even if it is a complete record. */
  lemma UnterminatedTailIgnored(g: Gen, s: string, tail: string, mode: Mode, parse: string -> Parsed)
    requires '\n' !in tail
    ensures HandleLines(g, Complete(s + tail, '\n'), mode, parse) == HandleLines(g, Complete(s, '\n'), mode, parse)
  {
    CompleteConcat(s, tail, '\n');
    var t := Trailing(s, '\n') + tail;
    assert '\n' !in t;
    SplitWithout(t, '\n');
    assert Complete(t, '\n') == [];
    assert Complete(s, '\n') + [] == Complete(s, '\n');
  }

  // ---------------------------------------------------------------------------
  // the whole generator

  /** What `response.json()` gives for a failed response. */
  datatype ErrorBody = NotJson(message: string) | ErrorJson(error: Option<string>)

  datatype Stream = Stream(chunks: seq<string>, end: ReadEnd)

  datatype Response =
    | FetchRejected(message: string)
    | Reply(status: int, errorBody: ErrorBody, body: Option<Stream>)

  /** Everything the caller's `for await` sees: the yielded messages, then the thrown error if any. */
  datatype Outcome = Outcome(yielded: seq<Message>, thrown: Option<string>)

  /** `error.error || 'Failed to send ...'`; a body that is not JSON rejects with its own message. */
  function FailureMessage(mode: Mode, body: ErrorBody): (m: string)
    ensures body.ErrorJson? ==> m != ""
    ensures body.ErrorJson? && !Truthy(body.error) ==> m == (if mode == Rag then ChatFailure else SimpleChatFailure)
    ensures body.ErrorJson? && Truthy(body.error) ==> m == body.error.value
    ensures body.NotJson? ==> m == body.message
  {
    match body
    case NotJson(message) => message
    case ErrorJson(e) => OrElse(e, if mode == Rag then ChatFailure else SimpleChatFailure)
  }

  /**
   Running the generator to completion. A failed request yields nothing and throws;
   a stream yields what its complete lines produce and throws only when a read
   rejects before a `done`.
   */
  function Run(mode: Mode, response: Response, parse: string -> Parsed): (o: Outcome)
    ensures response.FetchRejected? ==> o == Outcome([], Some(response.message))
    ensures response.Reply? && !Ok(response.status) ==>
              o == Outcome([], Some(FailureMessage(mode, response.errorBody)))
    ensures response.Reply? && Ok(response.status) && response.body.None? ==> o == Outcome([], Some(NullBody))
    ensures response.Reply? && Ok(response.status) && response.body.Some? ==>
              var g := HandleLines(Init(), Complete(Concat(response.body.value.chunks), '\n'), mode, parse);
              && o.yielded == g.yielded
              && (o.thrown.None? <==> g.finished || response.body.value.end.Drained?)
              && (!g.finished && response.body.value.end.ReadRejected? ==>
                    o.thrown == Some(response.body.value.end.message))
  {
    match response
    case FetchRejected(message) => Outcome([], Some(message))
    case Reply(status, errorBody, body) =>
      if !Ok(status) then Outcome([], Some(FailureMessage(mode, errorBody)))
      else match body
        case None => Outcome([], Some(NullBody))
        case Some(stream) =>
          ReceiveAllIsWhole(Init(), stream.chunks, mode, parse);
          var g := ReceiveAll(Reading(Init(), ""), stream.chunks, mode, parse).gen;
          Outcome(g.yielded, if g.finished then None else match stream.end
                                                       case Drained => None
                                                       case ReadRejected(m) => Some(m))
  }

  /**
   The generator's yields, line by line: with every `sources` record carrying a list,
   the k-th snapshot is the first k+1 `text` payloads concatenated, and a stream
   that ends without `done` yields no final extra snapshot.
   */
  lemma SnapshotContents(lines: seq<string>, mode: Mode, parse: string -> Parsed)
    requires mode == Simple || SourcesListedEarly(Records(lines, parse))
    ensures var g, ts := HandleLines(Init(), lines, mode, parse), Texts(Records(lines, parse));
            && |g.yielded| >= |ts|
            && (forall k :: 0 <= k < |ts| ==> g.yielded[k].content == Concat(ts[..k + 1]))
            && (!HasDone(Records(lines, parse)) ==> |g.yielded| == |ts| && !g.finished)
  {
    LinesAreRecords(Init(), lines, mode, parse);
    ContentsAccumulate(Records(lines, parse), mode);
  }
}

=== FILE: registry.dfy ===
/**
 The message-handler registry of the socket client: a map from message type to the
 handlers subscribed to it, and the fan-out of one incoming message. A JavaScript
 `Set` iterates in insertion order, and the order matters because a throwing handler
 stops the fan-out, so each set is a sequence without duplicates. The handler type
 is a parameter; handlers are compared by identity, as `Set` does.
 */
module Registry {
  import opened Optional

  const Wildcard: string := "*"

  /** `Map<string, Set<MessageHandler>>`. */
  type Handlers<H> = map<string, seq<H>>

  predicate NoDup<H(==,!new)>(s: seq<H>) {
    forall i, j :: 0 <= i < j < |s| ==> s[i] != s[j]
  }

  /** The shape `on`/`off` keep: no type maps to an empty set. */
  predicate Wf<H(==,!new)>(reg: Handlers<H>) {
    forall t :: t in reg ==> |reg[t]| > 0 && NoDup(reg[t])
  }

  predicate Registered<H(==,!new)>(reg: Handlers<H>, t: string, h: H) {
    t in reg && h in reg[t]
  }

  /**
   `on(type, handler)`: creates the type's set if missing and adds the handler; adding
   a handler that is already there changes nothing. `OnSpec` states the rest.
   */
  function On<H(==,!new)>(reg: Handlers<H>, t: string, h: H): (r: Handlers<H>)
    ensures Registered(r, t, h)
    ensures Registered(reg, t, h) ==> r == reg
  {
    if t in reg then
      if h in reg[t] then reg else reg[t := reg[t] + [h]]
    else reg[t := [h]]
  }

  /**
   `on` adds exactly the one pair and keeps the registry well formed; other types keep
   their sets, and the type's existing handlers keep their order ahead of the new one.
   */
  lemma OnSpec<H(!new)>(reg: Handlers<H>, t: string, h: H)
    ensures var r := On(reg, t, h);
            && (Wf(reg) ==> Wf(r))
            && (forall u, x :: Registered(r, u, x) <==> Registered(reg, u, x) || (u == t && x == h))
            && r.Keys == reg.Keys + {t}
            && (forall u :: u in reg && u != t ==> r[u] == reg[u])
            && (t in reg ==> |r[t]| >= |reg[t]| && r[t][..|reg[t]|] == reg[t])
  {
    if t in reg && h !in reg[t] && Wf(reg) {
      var s := reg[t] + [h];
      forall i, j | 0 <= i < j < |s|
        ensures s[i] != s[j]
      {
        if j == |s| - 1 {
          assert s[i] in reg[t];
        }
      }
    }
  }

  /** The handlers of `s` other than `h`, in order. */
  function Remove<H(==,!new)>(s: seq<H>, h: H): (r: seq<H>)
    ensures forall x :: x in r <==> x in s && x != h
    ensures h !in s ==> r == s
    ensures NoDup(s) ==> NoDup(r)
    ensures |r| <= |s|
  {
    if |s| == 0 then []
    else if s[0] == h then Remove(s[1..], h)
    else
      var rest := Remove(s[1..], h);
      NoDupTail(s);
      [s[0]] + rest
  }

  /**
   `Set.delete` keeps insertion order: removing a registered handler from a
   duplicate-free sequence splices it out and leaves the others where they were.
   */
  lemma {:induction false} RemoveSplice<H(!new)>(s: seq<H>, k: nat, h: H)
    requires NoDup(s) && k < |s| && s[k] == h
    ensures Remove(s, h) == s[..k] + s[k + 1..]
    decreases k
  {
    NoDupTail(s);
    var t := s[1..];
    if k == 0 {
      assert h !in t;
      assert Remove(s, h) == Remove(t, h) == t;
      assert s[..0] + s[1..] == t;
    } else {
      assert s[0] != h by {
        assert s[0] == s[k] ==> 0 == k;
      }
      assert t[k - 1] == h;
      RemoveSplice(t, k - 1, h);
      var rt := Remove(t, h);
      assert rt == t[..k - 1] + t[k..];
      assert Remove(s, h) == [s[0]] + rt;
      assert s[..k] == [s[0]] + t[..k - 1];
      assert s[k + 1..] == t[k..];
    }
  }

  lemma NoDupTail<H(!new)>(s: seq<H>)
    requires |s| > 0
    ensures NoDup(s) ==> s[0] !in s[1..] && NoDup(s[1..])
  {
    if NoDup(s) {
      forall k | 0 <= k < |s[1..]|
        ensures s[1..][k] != s[0]
      {
        assert s[1..][k] == s[k + 1];
      }
    }
  }

  /**
   `off(type, handler)`: removes exactly that pair and drops the type once its set is
   empty; an unregistered pair leaves the registry as it was. `OffSpec` states the rest.
   */
  function Off<H(==,!new)>(reg: Handlers<H>, t: string, h: H): (r: Handlers<H>)
    ensures !Registered(r, t, h)
    ensures t !in reg ==> r == reg
  {
    if t in reg then
      var rest := Remove(reg[t], h);
      if |rest| == 0 then reg - {t} else reg[t := rest]
    else reg
  }

  /**
   `off` removes exactly the one pair and keeps the registry well formed; other types
   keep their sets, an unregistered pair changes nothing, and the type stays only
   while it has another handler.
   */
  lemma OffSpec<H(!new)>(reg: Handlers<H>, t: string, h: H)
    ensures var r := Off(reg, t, h);
            && (Wf(reg) ==> Wf(r))
            && (forall u, x :: Registered(r, u, x) <==> Registered(reg, u, x) && !(u == t && x == h))
            && (forall u :: u in reg && u != t ==> u in r && r[u] == reg[u])
            && (Wf(reg) && !Registered(reg, t, h) ==> r == reg)
            && (Wf(reg) ==> (t in r <==> t in reg && exists x :: x in reg[t] && x != h))
  {
    if t in reg {
      var rest := Remove(reg[t], h);
      if |rest| > 0 {
        assert rest[0] in reg[t] && rest[0] != h;
      }
    }
  }

  /** What `on` returns: a closure over the pair it registered, which calls `off` with it. */
  datatype Subscription<H> = Subscription(kind: string, handler: H)

  function Unsubscribe<H(==,!new)>(reg: Handlers<H>, sub: Subscription<H>): Handlers<H> {
    Off(reg, sub.kind, sub.handler)
  }

  /** `on` is idempotent. */
  lemma OnTwice<H(!new)>(reg: Handlers<H>, t: string, h: H)
    ensures On(On(reg, t, h), t, h) == On(reg, t, h)
  {
  }

  lemma RemoveLast<H(!new)>(s: seq<H>, h: H)
    requires h !in s
    ensures Remove(s + [h], h) == s
  {
    if |s| > 0 {
      assert (s + [h])[1..] == s[1..] + [h];
      RemoveLast(s[1..], h);
    } else {
      assert [] + [h] == [h];
    }
  }

  /** `off` undoes an `on` of a pair that was not registered. */
  lemma OffUndoesOn<H(!new)>(reg: Handlers<H>, t: string, h: H)
    requires Wf(reg) && !Registered(reg, t, h)
    ensures Off(On(reg, t, h), t, h) == reg
  {
    if t in reg {
      RemoveLast(reg[t], h);
      assert |reg[t]| > 0;
    } else {
      assert Remove([h], h) == [];
      assert On(reg, t, h) - {t} == reg;
    }
  }

  /** `on` and `off` for different types do not interfere. */
  lemma OffOnCommute<H(!new)>(reg: Handlers<H>, t: string, u: string, h: H, k: H)
    requires t != u
    ensures Off(On(reg, u, k), t, h) == On(Off(reg, t, h), u, k)
  {
    var v := if u in reg then (if k in reg[u] then reg[u] else reg[u] + [k]) else [k];
    assert On(reg, u, k) == reg[u := v];
    if t in reg {
      var rest := Remove(reg[t], h);
      assert reg[u := v][t] == reg[t];
      if |rest| == 0 {
        assert Off(reg, t, h) == reg - {t};
        assert On(reg - {t}, u, k) == (reg - {t})[u := v];
        assert reg[u := v] - {t} == (reg - {t})[u := v];
      } else {
        assert Off(reg, t, h) == reg[t := rest];
        assert On(reg[t := rest], u, k) == reg[t := rest][u := v];
        assert reg[u := v][t := rest] == reg[t := rest][u := v];
      }
    } else {
      assert t !in reg[u := v];
    }
  }

  /**
   The document-updates adapter subscribes one callback to three types and later calls
   the three returned closures: when none of the pairs was registered before, the
   registry ends as it started.
   */
  lemma ThreeSubscriptionsUndone<H(!new)>(reg: Handlers<H>, h: H)
    requires Wf(reg)
    requires !Registered(reg, "document_update", h)
    requires !Registered(reg, "processing_progress", h)
    requires !Registered(reg, "document_error", h)
    ensures var r1 := On(reg, "document_update", h);
            var r2 := On(r1, "processing_progress", h);
            var r3 := On(r2, "document_error", h);
            var u1 := Unsubscribe(r3, Subscription("document_update", h));
            var u2 := Unsubscribe(u1, Subscription("processing_progress", h));
            Unsubscribe(u2, Subscription("document_error", h)) == reg
  {
    var a, b, c := "document_update", "processing_progress", "document_error";
    var r1 := On(reg, a, h);
    var r2 := On(r1, b, h);
    var r3 := On(r2, c, h);
    var u1 := Off(r3, a, h);
    assert u1 == On(On(reg, b, h), c, h) by {
      OffOnCommute(r2, a, c, h, h);
      OffOnCommute(r1, a, b, h, h);
      OffUndoesOn(reg, a, h);
    }
    var u2 := Off(u1, b, h);
    assert u2 == On(reg, c, h) by {
      OffOnCommute(On(reg, b, h), b, c, h, h);
      OffUndoesOn(reg, b, h);
    }
    OffUndoesOn(reg, c, h);
  }

  // ---------------------------------------------------------------------------
  // fan-out

  /** An incoming frame: unparseable, the JSON `null`, or an object with an optional string `type`. */
  datatype Inbound = Unparseable | NullMessage | Message(kind: Option<string>)

  /** The handlers `onmessage` would call, in order: the type's set, then the wildcard set. */
  function Fanout<H(==,!new)>(reg: Handlers<H>, msg: Inbound): seq<H> {
    match msg
    case Message(kind) =>
      (if kind.Some? && kind.value in reg then reg[kind.value] else [])
      + (if Wildcard in reg then reg[Wildcard] else [])
    case _ => []
  }

  /**
   The handlers actually called: the fan-out up to and including the first handler
   that throws, since the throw leaves both `forEach` loops for the `catch`.
   */
  function TakeThrough<H>(hs: seq<H>, throws: H -> bool): (r: seq<H>)
    ensures |r| <= |hs| && r == hs[..|r|]
    ensures forall i :: 0 <= i < |r| - 1 ==> !throws(r[i])
    ensures r == hs || (|r| > 0 && throws(r[|r| - 1]))
  {
    if |hs| == 0 then []
    else if throws(hs[0]) then [hs[0]]
    else [hs[0]] + TakeThrough(hs[1..], throws)
  }

  function Dispatch<H(==,!new)>(reg: Handlers<H>, msg: Inbound, throws: H -> bool): seq<H> {
    TakeThrough(Fanout(reg, msg), throws)
  }

  /**
   Who gets called: only handlers registered for the message's type or for `*`; an
   unparseable or `null` frame calls nobody; and when no handler throws, every handler
   of the type and then every wildcard handler is called, in that order (a message of
   type `*` therefore reaches each wildcard handler twice).
   */
  lemma DispatchCalls<H(!new)>(reg: Handlers<H>, msg: Inbound, throws: H -> bool)
    requires Wf(reg)
    ensures var calls := Dispatch(reg, msg, throws);
            && (forall h :: h in calls ==>
                  (msg.Message? && msg.kind.Some? && Registered(reg, msg.kind.value, h)) || Registered(reg, Wildcard, h))
            && (!msg.Message? ==> calls == [])
            && ((forall h :: h in Fanout(reg, msg) ==> !throws(h)) ==>
                  && calls == Fanout(reg, msg)
                  && (forall h :: msg.Message? && msg.kind.Some? && Registered(reg, msg.kind.value, h) ==> h in calls)
                  && (forall h :: Registered(reg, Wildcard, h) && msg.Message? ==> h in calls))
  {
    var calls := Dispatch(reg, msg, throws);
    var all := Fanout(reg, msg);
    forall h | h in calls
      ensures (msg.Message? && msg.kind.Some? && Registered(reg, msg.kind.value, h)) || Registered(reg, Wildcard, h)
    {
      assert h in all;
    }
  }

  /**
   The worked example: three handlers for `X` and one wildcard handler make four
   calls for an `X` message; after one of the three unsubscribes, three.
   */
  lemma FanoutExample()
    ensures var reg := On(On(On(On(map[], "X", 1), "X", 2), "X", 3), Wildcard, 4);
            && Dispatch(reg, Message(Some("X")), (h: int) => false) == [1, 2, 3, 4]
            && Dispatch(Off(reg, "X", 2), Message(Some("X")), (h: int) => false) == [1, 3, 4]
  {
    ExampleRegistry();
    ExampleDispatch(map["X" := [1, 2, 3], Wildcard := [4]]);
  }

  lemma ExampleDispatch(reg: Handlers<int>)
    requires reg == map["X" := [1, 2, 3], Wildcard := [4]]
    ensures Dispatch(reg, Message(Some("X")), (h: int) => false) == [1, 2, 3, 4]
    ensures Dispatch(Off(reg, "X", 2), Message(Some("X")), (h: int) => false) == [1, 3, 4]
  {
    assert Dispatch(reg, Message(Some("X")), (h: int) => false) == [1, 2, 3, 4] by {
      assert Fanout(reg, Message(Some("X"))) == [1, 2, 3] + [4];
      NeverThrows(Fanout(reg, Message(Some("X"))));
    }
    var off := Off(reg, "X", 2);
    assert off == map["X" := [1, 3], Wildcard := [4]] by {
      ExampleOff(reg);
    }
    assert Fanout(off, Message(Some("X"))) == [1, 3] + [4];
    NeverThrows(Fanout(off, Message(Some("X"))));
  }

  lemma ExampleOff(reg: Handlers<int>)
    requires reg == map["X" := [1, 2, 3], Wildcard := [4]]
    ensures Off(reg, "X", 2) == map["X" := [1, 3], Wildcard := [4]]
  {
    assert Remove([1, 2, 3], 2) == [1, 3] by {
      assert [1, 2, 3][1..] == [2, 3];
      assert [2, 3][1..] == [3];
      assert Remove([3], 2) == [3];
    }
    assert Off(reg, "X", 2) == reg["X" := [1, 3]];
  }

  lemma NeverThrows(hs: seq<int>)
    ensures TakeThrough(hs, (h: int) => false) == hs
  {
  }

  lemma ExampleRegistry()
    ensures On(On(On(On(map[], "X", 1), "X", 2), "X", 3), Wildcard, 4) == map["X" := [1, 2, 3], Wildcard := [4]]
  {
    var r1 := On(map[], "X", 1);
    assert r1 == map["X" := [1]];
    var r2 := On(r1, "X", 2);
    assert 2 !in [1] && [1] + [2] == [1, 2];
    assert r2 == map["X" := [1, 2]];
    var r3 := On(r2, "X", 3);
    assert 3 !in [1, 2] && [1, 2] + [3] == [1, 2, 3];
    assert r3 == map["X" := [1, 2, 3]];
  }
}

=== FILE: strings.dfy ===
/** A value that may be absent: JavaScript's `undefined` or `null` is `None`. */
module Optional {

  datatype Option<+T> = None | Some(value: T)

  /** JavaScript truthiness of an optional string: present and not empty. */
  predicate Truthy(s: Option<string>) {
    s.Some? && s.value != ""
  }

  /** `s || fallback` on an optional string. */
  function OrElse(s: Option<string>, fallback: string): string {
    if Truthy(s) then s.value else fallback
  }
}

/**
 The string operations of JavaScript's `String.prototype` that the client relies on:
 `indexOf`, `startsWith`, `trim`, `split` on a single character, and the decimal
 rendering of a non-negative number inside a template literal.
 */
module Strings {

  /** True when `p` occurs in `s` starting at index `i`. */
  predicate OccursAt(s: string, p: string, i: int) {
    0 <= i && i + |p| <= |s| && s[i..i + |p|] == p
  }

  /** `s.startsWith(p)` */
  predicate StartsWith(s: string, p: string) {
    |p| <= |s| && s[..|p|] == p
  }

  /** `a` is a prefix of `b`: `b.startsWith(a)`. */
  predicate IsPrefix(a: string, b: string) {
    StartsWith(b, a)
  }

  /** `s.endsWith(p)` */
  predicate EndsWith(s: string, p: string) {
    |p| <= |s| && s[|s| - |p|..] == p
  }

  /** `s.indexOf(p)`: the first index at which `p` occurs, or -1. */
  function IndexOf(s: string, p: string): (r: int)
    ensures r == -1 || OccursAt(s, p, r)
    ensures r == -1 ==> forall i :: !OccursAt(s, p, i)
    ensures r >= 0 ==> forall i :: i < r ==> !OccursAt(s, p, i)
  {
    IndexFrom(s, p, 0)
  }

  /** The first index at or after `k` at which `p` occurs, or -1. */
  function IndexFrom(s: string, p: string, k: nat): (r: int)
    ensures r == -1 || (k <= r && OccursAt(s, p, r))
    ensures r == -1 ==> forall i :: k <= i ==> !OccursAt(s, p, i)
    ensures r >= 0 ==> forall i :: k <= i < r ==> !OccursAt(s, p, i)
    decreases |s| - k
  {
    if k + |p| > |s| then -1
    else if s[k..k + |p|] == p then k
    else IndexFrom(s, p, k + 1)
  }

  /** An occurrence that fits inside `a` is an occurrence in `a + b`, and back. */
  lemma OccursInConcat(a: string, b: string, p: string, i: int)
    requires i + |p| <= |a|
    ensures OccursAt(a + b, p, i) <==> OccursAt(a, p, i)
  {
    if 0 <= i {
      assert (a + b)[i..i + |p|] == a[i..i + |p|];
    }
  }

  /** A text is the part before an occurrence, the occurrence, and the part after. */
  lemma AroundOccurrence(s: string, p: string, i: int)
    requires OccursAt(s, p, i)
    ensures s == s[..i] + p + s[i + |p|..]
  {
    assert s == s[..i] + s[i..i + |p|] + s[i + |p|..];
  }

  // ---------------------------------------------------------------------------
  // trim

  /**
   The characters `String.prototype.trim` removes: the ECMAScript WhiteSpace
   (tab, vertical tab, form feed, space, no-break space, byte order mark and the
   Unicode space separators) and LineTerminator (LF, CR, LS, PS) code points.
   */
  predicate IsSpace(c: char) {
    || c == ' ' || c == '\t' || c == '\n' || c == '\r' || c == '\U{B}' || c == '\U{C}'
    || c == '\U{A0}' || c == '\U{1680}' || ('\U{2000}' <= c <= '\U{200A}')
    || c == '\U{2028}' || c == '\U{2029}' || c == '\U{202F}' || c == '\U{205F}'
    || c == '\U{3000}' || c == '\U{FEFF}'
  }

  predicate AllSpace(s: string) {
    forall i :: 0 <= i < |s| ==> IsSpace(s[i])
  }

  /** `s.trimStart()`: drops the leading white space and nothing else. */
  function TrimStart(s: string): (r: string)
    ensures |r| <= |s| && r == s[|s| - |r|..]
    ensures AllSpace(s[..|s| - |r|])
    ensures r == [] || !IsSpace(r[0])
  {
    if |s| > 0 && IsSpace(s[0]) then
      var r := TrimStart(s[1..]);
      assert s[..|s| - |r|] == [s[0]] + s[1..][..|s| - 1 - |r|];
      r
    else s
  }

  /** `s.trimEnd()`: drops the trailing white space and nothing else. */
  function TrimEnd(s: string): (r: string)
    ensures |r| <= |s| && r == s[..|r|]
    ensures AllSpace(s[|r|..])
    ensures r == [] || !IsSpace(r[|r| - 1])
  {
    if |s| > 0 && IsSpace(s[|s| - 1]) then
      var r := TrimEnd(s[..|s| - 1]);
      assert s[|r|..] == s[..|s| - 1][|r|..] + [s[|s| - 1]];
      r
    else s
  }

  /** `s` is `r` with only white space before it (up to index `i`) and after it. */
  predicate Padded(s: string, i: int, r: string) {
    && 0 <= i && i + |r| <= |s|
    && s[i..i + |r|] == r
    && AllSpace(s[..i]) && AllSpace(s[i + |r|..])
  }

  /**
   `s.trim()`: the slice of `s` left once the surrounding white space is removed; it
   neither starts nor ends with white space, and is empty exactly when `s` is all
   white space.
   */
  function Trim(s: string): (r: string)
    ensures exists i :: Padded(s, i, r)
    ensures r == [] || (!IsSpace(r[0]) && !IsSpace(r[|r| - 1]))
    ensures r == [] <==> AllSpace(s)
  {
    TrimAllSpace(s);
    TrimIsPadded(s);
    TrimEnd(TrimStart(s))
  }

  lemma TrimIsPadded(s: string)
    ensures Padded(s, |s| - |TrimStart(s)|, TrimEnd(TrimStart(s)))
  {
    PaddedSlices(s, TrimStart(s), TrimEnd(TrimStart(s)));
  }

  /** A suffix after white space, cut before white space, is padded in the whole. */
  lemma PaddedSlices(s: string, t: string, r: string)
    requires |t| <= |s| && t == s[|s| - |t|..] && AllSpace(s[..|s| - |t|])
    requires |r| <= |t| && r == t[..|r|] && AllSpace(t[|r|..])
    ensures Padded(s, |s| - |t|, r)
  {
    var k := |s| - |t|;
    assert s[k..k + |r|] == t[..|r|];
    assert s[k + |r|..] == t[|r|..];
  }

  /** Trimming text surrounded by white space gives the text, when it has none at its ends. */
  lemma TrimSurrounded(a: string, x: string, b: string)
    requires AllSpace(a) && AllSpace(b)
    requires x != [] && !IsSpace(x[0]) && !IsSpace(x[|x| - 1])
    ensures Trim(a + x + b) == x
  {
    assert a + x + b == a + (x + b);
    TrimStartSpaces(a, x + b);
    TrimEndSpaces(x, b);
  }

  lemma {:induction false} TrimStartSpaces(a: string, y: string)
    requires AllSpace(a) && (y == [] || !IsSpace(y[0]))
    ensures TrimStart(a + y) == y
    decreases |a|
  {
    if |a| == 0 {
      assert a + y == y;
    } else {
      assert (a + y)[0] == a[0] && IsSpace(a[0]);
      assert (a + y)[1..] == a[1..] + y;
      TrimStartSpaces(a[1..], y);
    }
  }

  lemma {:induction false} TrimEndSpaces(y: string, b: string)
    requires AllSpace(b) && (y == [] || !IsSpace(y[|y| - 1]))
    ensures TrimEnd(y + b) == y
    decreases |b|
  {
    if |b| == 0 {
      assert y + b == y;
    } else {
      var yb := y + b;
      assert yb[|yb| - 1] == b[|b| - 1] && IsSpace(b[|b| - 1]);
      assert yb[..|yb| - 1] == y + b[..|b| - 1];
      TrimEndSpaces(y, b[..|b| - 1]);
    }
  }

  lemma TrimAllSpace(s: string)
    ensures TrimEnd(TrimStart(s)) == [] <==> AllSpace(s)
  {
    var t := TrimStart(s);
    var r := TrimEnd(t);
    if t != [] {
      assert !IsSpace(t[0]) && t[0] == s[|s| - |t|];
      assert r != [];
    } else {
      assert s[..|s|] == s;
    }
  }

  lemma {:induction false} TrimStartSnoc(s: string, c: char)
    ensures TrimStart(s + [c]) == if TrimStart(s) == [] && IsSpace(c) then [] else TrimStart(s) + [c]
    decreases |s|
  {
    if |s| > 0 && IsSpace(s[0]) {
      assert (s + [c])[1..] == s[1..] + [c];
      TrimStartSnoc(s[1..], c);
    } else if |s| == 0 {
      assert s + [c] == [c];
    }
  }

  /** A trailing white-space character never changes what `trim` returns. */
  lemma TrimSpaceSnoc(s: string, c: char)
    requires IsSpace(c)
    ensures Trim(s + [c]) == Trim(s)
  {
    TrimStartSnoc(s, c);
    var t := TrimStart(s);
    if t != [] {
      assert (t + [c])[..|t + [c]| - 1] == t;
    }
  }

  // ---------------------------------------------------------------------------
  // split and join

  /** `parts.join(sep)` */
  function Join(parts: seq<string>, sep: string): string {
    if |parts| == 0 then ""
    else if |parts| == 1 then parts[0]
    else parts[0] + sep + Join(parts[1..], sep)
  }

  /**
   `s.split(c)` for a one-character separator: the pieces between the occurrences
   of `c`, always at least one, none containing `c`, and joined back by `c` they
   give `s` again.
   */
  function Split(s: string, c: char): (parts: seq<string>)
    ensures |parts| >= 1
  {
    if |s| == 0 then [""]
    else
      var rest := Split(s[1..], c);
      if s[0] == c then [""] + rest
      else [[s[0]] + rest[0]] + rest[1..]
  }

  /** No piece of `s.split(c)` contains `c`. */
  lemma {:induction false} SplitAvoids(s: string, c: char)
    ensures forall i :: 0 <= i < |Split(s, c)| ==> c !in Split(s, c)[i]
    decreases |s|
  {
    if |s| > 0 {
      SplitAvoids(s[1..], c);
      var rest := Split(s[1..], c);
      if s[0] != c {
        assert c !in [s[0]] + rest[0];
      }
    }
  }

  /** A text without `c` splits into itself alone. */
  lemma {:induction false} SplitWithout(s: string, c: char)
    requires c !in s
    ensures Split(s, c) == [s]
    decreases |s|
  {
    if |s| > 0 {
      assert c !in s[1..];
      SplitWithout(s[1..], c);
      assert s == [s[0]] + s[1..];
    }
  }

  /** Joining the pieces of `s.split(c)` back with `c` gives `s` again. */
  lemma {:induction false} SplitJoin(s: string, c: char)
    ensures Join(Split(s, c), [c]) == s
    decreases |s|
  {
    if |s| > 0 {
      var rest := Split(s[1..], c);
      SplitJoin(s[1..], c);
      if s[0] == c {
        assert s == [c] + s[1..];
      } else {
        var parts := [[s[0]] + rest[0]] + rest[1..];
        assert parts[1..] == rest[1..];
        assert s == [s[0]] + s[1..];
      }
    }
  }

  /** All pieces of `s.split(c)` but the last: the lines ended by a `c`. */
  function Complete(s: string, c: char): seq<string> {
    var parts := Split(s, c);
    parts[..|parts| - 1]
  }

  /** The last piece of `s.split(c)`: what `parts.pop()` returns. */
  function Trailing(s: string, c: char): (r: string)
    ensures c !in r
  {
    var parts := Split(s, c);
    SplitAvoids(s, c);
    parts[|parts| - 1]
  }

  /** What `parts.pop()` returns is a suffix of the text. */
  lemma TrailingIsSuffix(s: string, c: char)
    ensures EndsWith(s, Trailing(s, c))
  {
    var parts := Split(s, c);
    var t := parts[|parts| - 1];
    assert Trailing(s, c) == t;
    var j := Join(parts, [c]);
    assert j == s by {
      SplitJoin(s, c);
    }
    assert EndsWith(j, t) by {
      JoinLast(parts, [c]);
    }
  }

  lemma {:induction false} JoinLast(parts: seq<string>, sep: string)
    requires |parts| >= 1
    ensures EndsWith(Join(parts, sep), parts[|parts| - 1])
    decreases |parts|
  {
    if |parts| > 1 {
      JoinLast(parts[1..], sep);
    }
  }

  lemma SplitCons(a: char, t: string, c: char)
    ensures Split([a] + t, c)
         == if a == c then [""] + Split(t, c) else [[a] + Split(t, c)[0]] + Split(t, c)[1..]
  {
    assert ([a] + t)[1..] == t;
  }

  /** Splitting a concatenation: the last piece of `x` is glued to the first of `y`. */
  lemma {:induction false} SplitConcat(x: string, y: string, c: char)
    ensures Split(x + y, c)
         == Complete(x, c) + [Trailing(x, c) + Split(y, c)[0]] + Split(y, c)[1..]
    decreases |x|
  {
    if |x| == 0 {
      assert x == [];
      SplitEmptyConcat(y, c);
    } else {
      var x' := x[1..];
      assert x == [x[0]] + x';
      assert x + y == [x[0]] + (x' + y);
      SplitConcat(x', y, c);
      SplitCons(x[0], x', c);
      SplitCons(x[0], x' + y, c);
      GlueStep(x[0], Split(x', c), Split(y, c), Split(x' + y, c), c);
    }
  }

  lemma SplitEmptyConcat(y: string, c: char)
    ensures Split([] + y, c)
         == Complete([], c) + [Trailing([], c) + Split(y, c)[0]] + Split(y, c)[1..]
  {
    var ys := Split(y, c);
    assert [] + y == y;
    assert Split([], c) == [""];
    assert Complete([], c) == [] && Trailing([], c) == "";
    assert [ys[0]] + ys[1..] == ys;
    assert "" + ys[0] == ys[0];
  }

  /** One step of `SplitConcat`, stated on the pieces alone. */
  lemma GlueStep(a: char, sx: seq<string>, ys: seq<string>, r: seq<string>, c: char)
    requires |sx| >= 1 && |ys| >= 1
    requires r == sx[..|sx| - 1] + [sx[|sx| - 1] + ys[0]] + ys[1..]
    ensures (var whole := if a == c then [""] + sx else [[a] + sx[0]] + sx[1..];
             (if a == c then [""] + r else [[a] + r[0]] + r[1..])
             == whole[..|whole| - 1] + [whole[|whole| - 1] + ys[0]] + ys[1..])
  {
    var n := |sx|;
    if a == c {
      var whole := [""] + sx;
      assert whole[..n] == [""] + sx[..n - 1];
    } else if n == 1 {
      assert r[0] == sx[0] + ys[0];
      assert r[1..] == ys[1..];
      assert [a] + (sx[0] + ys[0]) == ([a] + sx[0]) + ys[0];
    } else {
      var whole := [[a] + sx[0]] + sx[1..];
      assert whole[..n - 1] == [[a] + sx[0]] + sx[1..n - 1];
      assert r[0] == sx[0];
      assert r[1..] == sx[1..n - 1] + [sx[n - 1] + ys[0]] + ys[1..];
    }
  }

  /** Complete lines of `x + y` are those of `x` followed by those of its tail glued to `y`. */
  lemma CompleteConcat(x: string, y: string, c: char)
    ensures Complete(x + y, c) == Complete(x, c) + Complete(Trailing(x, c) + y, c)
    ensures Trailing(x + y, c) == Trailing(Trailing(x, c) + y, c)
  {
    var t, ys := Trailing(x, c), Split(y, c);
    var tail := [t + ys[0]] + ys[1..];
    assert Split(x + y, c) == Complete(x, c) + tail by {
      SplitConcat(x, y, c);
    }
    assert Split(t + y, c) == tail by {
      SplitConcat(t, y, c);
      SplitWithout(t, c);
      assert Complete(t, c) == [] && Trailing(t, c) == t;
    }
    LastOfConcat(Complete(x, c), tail);
  }

  lemma LastOfConcat<T>(a: seq<T>, b: seq<T>)
    requires |b| > 0
    ensures (a + b)[..|a + b| - 1] == a + b[..|b| - 1]
    ensures (a + b)[|a + b| - 1] == b[|b| - 1]
  {
  }

  // ---------------------------------------------------------------------------
  // numbers in template literals

  function DigitChar(d: nat): (c: char)
    requires d < 10
    ensures '0' <= c <= '9'
  {
    "0123456789"[d]
  }

  /** The decimal rendering `${n}` of a non-negative integer: digits only, no leading zero. */
  function NatToString(n: nat): (r: string)
    ensures |r| >= 1
    ensures forall i :: 0 <= i < |r| ==> '0' <= r[i] <= '9'
    ensures |r| > 1 ==> r[0] != '0'
    ensures n < 10 <==> |r| == 1
  {
    if n < 10 then [DigitChar(n)] else NatToString(n / 10) + [DigitChar(n % 10)]
  }

  /** Distinct numbers render as distinct strings. */
  lemma {:induction false} NatToStringInjective(a: nat, b: nat)
    requires NatToString(a) == NatToString(b)
    ensures a == b
    decreases a
  {
    if a >= 10 && b >= 10 {
      var ra, rb := NatToString(a / 10), NatToString(b / 10);
      assert ra == NatToString(a)[..|NatToString(a)| - 1];
      assert rb == NatToString(b)[..|NatToString(b)| - 1];
      NatToStringInjective(a / 10, b / 10);
      assert "0123456789"[a % 10] == "0123456789"[b % 10];
    }
  }

  /** JavaScript's rendering of an integer: a minus sign before a negative one. */
  function IntToString(n: int): string {
    if n < 0 then "-" + NatToString(-n) else NatToString(n)
  }
}

=== FILE: toasts.dfy ===
/**
 The toast store: one list of toasts shared by every caller, and a counter that
 numbers them. `toast` appends an entry with the next id and, for a positive
 duration, sets a timer that dismisses it; `dismiss` removes the entry with an id.
 */
module Toasts {
  import opened Optional
  import opened Strings

  const DefaultDuration: int := 3000
  const IdPrefix: string := "toast-"

  datatype Variant = Default | Success | Error | Warning

  datatype Toast = Toast(id: string, title: string, description: Option<string>, variant: Variant, duration: int)

  /** The argument of `toast`: everything but the id; a missing field takes its default. */
  datatype ToastOptions = ToastOptions(title: string, description: Option<string>,
                                       variant: Option<Variant>, duration: Option<int>)

  /**
   The module-level state: the `toasts` list, the `toastId` counter, and the ids
   whose dismissal timer is still pending.
   */
  datatype Store = Store(toasts: seq<Toast>, counter: nat, timers: seq<string>)

  const Empty: Store := Store([], 0, [])

  /** The id of the n-th toast: `` `toast-${n}` ``. */
  function IdOf(n: nat): string {
    IdPrefix + NatToString(n)
  }

  lemma IdOfInjective(a: nat, b: nat)
    requires IdOf(a) == IdOf(b)
    ensures a == b
  {
    assert NatToString(a) == IdOf(a)[|IdPrefix|..];
    assert NatToString(b) == IdOf(b)[|IdPrefix|..];
    NatToStringInjective(a, b);
  }

  /** `id` was handed out by one of the first `n` calls. */
  ghost predicate IssuedBy(id: string, n: nat) {
    exists k :: 1 <= k <= n && id == IdOf(k)
  }

  predicate UniqueIds(ts: seq<Toast>) {
    forall i, j :: 0 <= i < j < |ts| ==> ts[i].id != ts[j].id
  }

  /** Every id in the store was issued already, and no two toasts share one. */
  ghost predicate Inv(s: Store) {
    && (forall i :: 0 <= i < |s.toasts| ==> IssuedBy(s.toasts[i].id, s.counter))
    && (forall i :: 0 <= i < |s.timers| ==> IssuedBy(s.timers[i], s.counter))
    && UniqueIds(s.toasts)
  }

  /** The next id differs from every id issued before it. */
  lemma FreshId(id: string, n: nat)
    requires IssuedBy(id, n)
    ensures id != IdOf(n + 1)
  {
    var k :| 1 <= k <= n && id == IdOf(k);
    if id == IdOf(n + 1) {
      IdOfInjective(k, n + 1);
    }
  }

  /**
   `toast(options)`: the counter moves on, exactly one entry with the new id is
   appended after the existing ones, and a dismissal timer is set only for a
   positive duration. The id is returned.
   */
  function ShowToast(s: Store, o: ToastOptions): (r: (Store, string))
    ensures r.1 == IdOf(s.counter + 1) && r.0.counter == s.counter + 1
    ensures var variant := if o.variant.Some? then o.variant.value else Default;
            var duration := if o.duration.Some? then o.duration.value else DefaultDuration;
            && r.0.toasts == s.toasts + [Toast(r.1, o.title, o.description, variant, duration)]
            && r.0.timers == s.timers + (if duration > 0 then [r.1] else [])
  {
    var id := IdOf(s.counter + 1);
    var variant := match o.variant case Some(v) => v case None => Default;
    var duration := match o.duration case Some(d) => d case None => DefaultDuration;
    var t := Toast(id, o.title, o.description, variant, duration);
    (Store(s.toasts + [t], s.counter + 1, s.timers + (if duration > 0 then [id] else [])), id)
  }

  lemma ShowToastInv(s: Store, o: ToastOptions)
    requires Inv(s)
    ensures Inv(ShowToast(s, o).0)
    ensures forall i :: 0 <= i < |s.toasts| ==> s.toasts[i].id != ShowToast(s, o).1
    ensures forall i :: 0 <= i < |s.timers| ==> s.timers[i] != ShowToast(s, o).1
  {
    var r := ShowToast(s, o).0;
    var id := ShowToast(s, o).1;
    forall i | 0 <= i < |s.toasts|
      ensures s.toasts[i].id != id
    {
      FreshId(s.toasts[i].id, s.counter);
    }
    forall i | 0 <= i < |s.timers|
      ensures s.timers[i] != id
    {
      FreshId(s.timers[i], s.counter);
    }
    forall i | 0 <= i < |r.toasts|
      ensures IssuedBy(r.toasts[i].id, r.counter)
    {
      if i < |s.toasts| {
        var k :| 1 <= k <= s.counter && s.toasts[i].id == IdOf(k);
        assert r.toasts[i].id == IdOf(k);
      } else {
        assert r.toasts[i].id == IdOf(s.counter + 1);
      }
    }
    forall i | 0 <= i < |r.timers|
      ensures IssuedBy(r.timers[i], r.counter)
    {
      if i < |s.timers| {
        var k :| 1 <= k <= s.counter && s.timers[i] == IdOf(k);
        assert r.timers[i] == IdOf(k);
      } else {
        assert r.timers[i] == IdOf(s.counter + 1);
      }
    }
  }

  /** `findIndex(t => t.id === id)`. */
  function FindIndex(ts: seq<Toast>, id: string): (r: int)
    ensures -1 <= r < |ts|
    ensures r == -1 <==> forall i :: 0 <= i < |ts| ==> ts[i].id != id
    ensures r >= 0 ==> ts[r].id == id && forall i :: 0 <= i < r ==> ts[i].id != id
  {
    if |ts| == 0 then -1
    else if ts[0].id == id then 0
    else
      var k := FindIndex(ts[1..], id);
      if k == -1 then -1 else k + 1
  }

  /** `splice(i, 1)`: the list without its i-th entry. */
  function RemoveAt(ts: seq<Toast>, i: nat): (r: seq<Toast>)
    requires i < |ts|
    ensures |r| == |ts| - 1
    ensures forall k :: 0 <= k < |r| ==> r[k] == ts[if k < i then k else k + 1]
  {
    ts[..i] + ts[i + 1..]
  }

  /** `dismiss(id)`: the first entry with that id is spliced out; an absent id changes nothing. */
  function Dismiss(s: Store, id: string): (r: Store)
    ensures r.counter == s.counter && r.timers == s.timers
    ensures (forall i :: 0 <= i < |s.toasts| ==> s.toasts[i].id != id) ==> r == s
    ensures |r.toasts| <= |s.toasts|
  {
    var i := FindIndex(s.toasts, id);
    if i > -1 then s.(toasts := RemoveAt(s.toasts, i)) else s
  }

  /** The reference: the toasts whose id is not `id`, in their order. */
  function Without(ts: seq<Toast>, id: string): seq<Toast> {
    if |ts| == 0 then []
    else if ts[0].id == id then Without(ts[1..], id)
    else [ts[0]] + Without(ts[1..], id)
  }

  lemma {:induction false} WithoutMembers(ts: seq<Toast>, id: string)
    ensures forall t :: t in Without(ts, id) <==> t in ts && t.id != id
    decreases |ts|
  {
    if |ts| > 0 {
      WithoutMembers(ts[1..], id);
      assert ts == [ts[0]] + ts[1..];
    }
  }

  lemma {:induction false} WithoutAbsent(ts: seq<Toast>, id: string)
    requires forall i :: 0 <= i < |ts| ==> ts[i].id != id
    ensures Without(ts, id) == ts
    decreases |ts|
  {
    if |ts| > 0 {
      assert forall k :: 0 <= k < |ts[1..]| ==> ts[1..][k].id != id by {
        forall k | 0 <= k < |ts[1..]|
          ensures ts[1..][k].id != id
        {
          assert ts[1..][k] == ts[k + 1];
        }
      }
      WithoutAbsent(ts[1..], id);
      assert ts == [ts[0]] + ts[1..];
    }
  }

  lemma UniqueTail(ts: seq<Toast>)
    requires |ts| > 0 && UniqueIds(ts)
    ensures UniqueIds(ts[1..])
  {
    forall a, b | 0 <= a < b < |ts[1..]|
      ensures ts[1..][a].id != ts[1..][b].id
    {
      assert ts[1..][a] == ts[a + 1] && ts[1..][b] == ts[b + 1];
    }
  }

  lemma RemoveAtCons(ts: seq<Toast>, k: nat)
    requires 0 < |ts| && k < |ts| - 1
    ensures RemoveAt(ts, k + 1) == [ts[0]] + RemoveAt(ts[1..], k)
  {
    var l, r := RemoveAt(ts, k + 1), [ts[0]] + RemoveAt(ts[1..], k);
    assert |l| == |r|;
    forall j | 0 <= j < |l|
      ensures l[j] == r[j]
    {
      if j > 0 {
        assert r[j] == RemoveAt(ts[1..], k)[j - 1];
      }
    }
  }

  /**
   With unique ids, `dismiss` is filtering: it removes the toast with that id and
   keeps every other toast in its relative order.
   */
  lemma {:induction false} DismissIsFilter(s: Store, id: string)
    requires UniqueIds(s.toasts)
    ensures Dismiss(s, id).toasts == Without(s.toasts, id)
  {
    DismissFilter(s.toasts, id);
  }

  lemma {:induction false} DismissFilter(ts: seq<Toast>, id: string)
    requires UniqueIds(ts)
    ensures var i := FindIndex(ts, id);
            (if i > -1 then RemoveAt(ts, i) else ts) == Without(ts, id)
    decreases |ts|
  {
    if |ts| == 0 {
    } else if ts[0].id == id {
      DismissHead(ts, id);
    } else {
      UniqueTail(ts);
      DismissFilter(ts[1..], id);
      DismissLater(ts, id);
    }
  }

  /** The first toast has the id: it alone goes, since no later one shares it. */
  lemma DismissHead(ts: seq<Toast>, id: string)
    requires |ts| > 0 && ts[0].id == id && UniqueIds(ts)
    ensures FindIndex(ts, id) == 0 && RemoveAt(ts, 0) == Without(ts, id)
  {
    forall k | 0 <= k < |ts[1..]|
      ensures ts[1..][k].id != id
    {
      assert ts[1..][k] == ts[k + 1];
      assert ts[0].id != ts[k + 1].id;
    }
    WithoutAbsent(ts[1..], id);
    assert RemoveAt(ts, 0) == ts[1..];
  }

  /** The first toast has another id: it stays in front of what dismissing in the rest leaves. */
  lemma DismissLater(ts: seq<Toast>, id: string)
    requires |ts| > 0 && ts[0].id != id
    requires var k := FindIndex(ts[1..], id);
             (if k > -1 then RemoveAt(ts[1..], k) else ts[1..]) == Without(ts[1..], id)
    ensures var i := FindIndex(ts, id);
            (if i > -1 then RemoveAt(ts, i) else ts) == Without(ts, id)
  {
    var k := FindIndex(ts[1..], id);
    assert Without(ts, id) == [ts[0]] + Without(ts[1..], id);
    if k == -1 {
      assert FindIndex(ts, id) == -1;
      assert ts == [ts[0]] + ts[1..];
    } else {
      assert FindIndex(ts, id) == k + 1;
      RemoveAtCons(ts, k);
    }
  }

  /** `dismiss` keeps the invariant: ids stay issued and unique. */
  lemma DismissInv(s: Store, id: string)
    requires Inv(s)
    ensures Inv(Dismiss(s, id))
  {
    var r := Dismiss(s, id);
    var i := FindIndex(s.toasts, id);
    if i > -1 {
      forall a, b | 0 <= a < b < |r.toasts|
        ensures r.toasts[a].id != r.toasts[b].id
      {
        var a', b' := if a < i then a else a + 1, if b < i then b else b + 1;
        assert r.toasts[a] == s.toasts[a'] && r.toasts[b] == s.toasts[b'];
      }
      forall k | 0 <= k < |r.toasts|
        ensures IssuedBy(r.toasts[k].id, r.counter)
      {
        var k' := if k < i then k else k + 1;
        assert r.toasts[k] == s.toasts[k'];
      }
    }
  }

  /** With unique ids a second `dismiss` of the same id changes nothing. */
  lemma DismissIdempotent(s: Store, id: string)
    requires UniqueIds(s.toasts)
    ensures Dismiss(Dismiss(s, id), id) == Dismiss(s, id)
  {
    var r := Dismiss(s, id);
    DismissIsFilter(s, id);
    WithoutMembers(s.toasts, id);
    forall k | 0 <= k < |r.toasts|
      ensures r.toasts[k].id != id
    {
      assert r.toasts[k] in Without(s.toasts, id);
    }
  }

  /** Showing a toast and then dismissing its id leaves the list as it was. */
  lemma ShowThenDismiss(s: Store, o: ToastOptions)
    requires Inv(s)
    ensures var (r, id) := ShowToast(s, o);
            Dismiss(r, id).toasts == s.toasts
  {
    var (r, id) := ShowToast(s, o);
    ShowToastInv(s, o);
    assert r.toasts[|s.toasts|].id == id;
    assert forall k :: 0 <= k < |s.toasts| ==> r.toasts[k] == s.toasts[k];
    var i := FindIndex(r.toasts, id);
    assert RemoveAt(r.toasts, i) == s.toasts;
  }

  /** A pending timer fires: `dismiss(id)` runs and the timer is gone. */
  function TimerFired(s: Store, k: nat): (r: Store)
    ensures k >= |s.timers| ==> r == s
    ensures k < |s.timers| ==> r.toasts == Dismiss(s, s.timers[k]).toasts && |r.timers| == |s.timers| - 1
    ensures k < |s.timers| ==> r.counter == s.counter && r.timers == s.timers[..k] + s.timers[k + 1..]
  {
    if k >= |s.timers| then s
    else Dismiss(s, s.timers[k]).(timers := s.timers[..k] + s.timers[k + 1..])
  }

  /** A firing timer keeps ids unique and issued. */
  lemma TimerFiredInv(s: Store, k: nat)
    requires Inv(s)
    ensures Inv(TimerFired(s, k))
  {
    if k < |s.timers| {
      var d := Dismiss(s, s.timers[k]);
      DismissInv(s, s.timers[k]);
      var r := TimerFired(s, k);
      forall i | 0 <= i < |r.timers|
        ensures IssuedBy(r.timers[i], r.counter)
      {
        assert r.timers[i] == s.timers[if i < k then i else i + 1];
      }
    }
  }

  /**
   A toast shown with a duration of zero or less gets no dismissal timer: no pending
   timer carries its id.
   */
  lemma NoTimerForNonPositive(s: Store, o: ToastOptions)
    requires Inv(s) && o.duration.Some? && o.duration.value <= 0
    ensures var r := ShowToast(s, o);
            forall i :: 0 <= i < |r.0.timers| ==> r.0.timers[i] != r.1
  {
    ShowToastInv(s, o);
  }

  /** `success`/`error`/`warning`: a toast with that variant and the default duration. */
  function Notify(s: Store, variant: Variant, title: string, description: Option<string>): (r: (Store, string))
    ensures r.0.toasts == s.toasts + [Toast(r.1, title, description, variant, DefaultDuration)]
    ensures r.0.timers == s.timers + [r.1]
    ensures r.1 == IdOf(s.counter + 1)
  {
    ShowToast(s, ToastOptions(title, description, Some(variant), None))
  }

  function SuccessToast(s: Store, title: string, description: Option<string>): (r: (Store, string))
    ensures r.0.toasts == s.toasts + [Toast(r.1, title, description, Success, DefaultDuration)]
  {
    Notify(s, Success, title, description)
  }

  function ErrorToast(s: Store, title: string, description: Option<string>): (r: (Store, string))
    ensures r.0.toasts == s.toasts + [Toast(r.1, title, description, Error, DefaultDuration)]
  {
    Notify(s, Error, title, description)
  }

  function WarningToast(s: Store, title: string, description: Option<string>): (r: (Store, string))
    ensures r.0.toasts == s.toasts + [Toast(r.1, title, description, Warning, DefaultDuration)]
  {
    Notify(s, Warning, title, description)
  }
}
